=== FILE: README.md ===
# Schaap soil grids to a SHETRAN soil library — a Dafny model

The script `Schaap-To-SHETRAN-1Layer.py` turns five gridded van Genuchten
soil-parameter rasters into a SHETRAN soil library. The five parameters are
saturated water content θS, residual water content θR, saturated
conductivity Ksat, α and n. The script runs in five steps:

1. Read the grid size (`ncols`, `nrows`) from the header of the first raster.
2. Build a grid of sequential sub-category numbers 1..N.
3. Flatten the five parameter grids, and convert Ksat from cm/d to m/d
   while leaving the no-data value -999 untouched.
4. Number the distinct θS values in first-seen order. Replace every cell
   by the number of its value, which gives the super-category map, and
   reshape that map to the grid's size.
5. Build the SoilProperties table and the SoilDetails table. Each has one
   row per category. A property row holds the category number as both
   SuperCats and SoilType, plus the i-th distinct value of every
   parameter. A detail row puts its category in layer 1, 2.0 m deep.

The model is a set of pure Dafny functions, one module per step:

- `Header` models the line scan with `str.find` and the number pattern
  `-?\d+\.?\d*`. `int` is applied to every match on the line, not only
  the first.
- `SubCats` models the numbering loop.
- `Ksat` models the sentinel-aware conversion.
- `Dedup` models `unique`, the value→index dictionary and the numbering
  loop.
- `Grid` models flatten and reshape.
- `Tables` models the two tables.
- `Pipeline.Run` composes the steps.

Every way the modelled steps can stop is an error value of `Run`:

- A size line without a readable integer.
- A size never set.
- A negative size, which `np.zeros` rejects.
- A θS grid whose cell count differs from `nrows × ncols`. Only the θS
  IDs reach `reshape` (line 143), which rejects them.
- A parameter column whose number of distinct values differs from the
  number of categories. Assigning an array of the wrong length to a
  frame column fails.

`Run` also refuses one kind of input the script never meets: a θR, Ksat,
α or n grid without `nrows × ncols` cells. The reader is called with the
header's size for every grid, so the script only ever sees grids of that
size.

The script's own notes say that SHETRAN needs the conductivity in m/d
(line 23). The comment on line 120 says the conversion from cm/d is done
there. Yet line 160 builds the table's conductivity column from
`DfVG_Ksat`, the grid as read in cm/d, and nothing reads the converted
series. The model does what the code does. The conversion is a
separate function, `ConvertedKsat`, that `Run` does not call, because
nothing in the script reads the converted series. `Pipeline.KsatColumnUnconverted` shows a table holding
100.0 where the converted value would be 1.0.

The table is assembled column by column:

- Line 167 creates the frame with one row per category.
- Lines 168-169 add the category column twice, as SuperCats and SoilType.
- Lines 170-174 add the distinct values of each parameter as an array, in
  the order θS, θR, Ksat, α, n.

An array whose length differs from the number of rows makes the
assignment fail, so the first such column stops the script. θS always
fits, because the categories are numbered from its values. The model
reports the first column, in that order, that does not fit.

Only θS is tied to the cells of a category. Each of the other four
columns is the first-seen list of that parameter's own distinct values
(lines 160-164), built with no reference to θS. Row i holds the i-th
distinct θR, which need not be the θR of any cell of category i. The
table describes the cells only when every parameter grid repeats its
values at exactly the cells where θS does (`Tables.Consistent`). Gridded
parameters derived per soil class have that shape. Then
`Tables.ConsistentRowsDescribeCells` shows that the row a cell points at
holds all five of that cell's values. `Tables.IndependentColumnsExample`
gives a pair of grids where the lengths still agree, so the table is
built, but a row holds a θR that no cell of its category has. The model
builds the table as the script does in both cases.

## Model

| member | source | states |
|---|---|---|
| Header.ContainsIff | Schaap-To-SHETRAN-1Layer.py:81 | `find` returns a position other than -1 exactly when the key occurs somewhere in the line |
| Header.FindFrom | Schaap-To-SHETRAN-1Layer.py:81 | `str.find`: -1 when the key occurs nowhere from the start position on, and otherwise the first position where it occurs |
| Header.NumberStart | Schaap-To-SHETRAN-1Layer.py:82 | where `findall` finds its next match: the leftmost position from which the pattern `-?\d+\.?\d*` matches, or none |
| Header.PointFromIff | Schaap-To-SHETRAN-1Layer.py:82 | going match by match, as `findall` does, some match has a decimal point exactly when some digit on the rest of the line is directly followed by a point |
| Header.MatchAtDigits | Schaap-To-SHETRAN-1Layer.py:82 | a match made of a run of digits, with a leading minus sign or not, and followed by neither a digit nor a point, has no point, ends after its digits, and has the digits' value, negated after the sign |
| Header.FirstInt | Schaap-To-SHETRAN-1Layer.py:82 | no match on the line gives "no number", which is the failure of `[0]`; a match with a decimal point anywhere on the line gives "not an integer", which is the failure of `int`; otherwise the value is the first match's |
| Header.MatchAt | Schaap-To-SHETRAN-1Layer.py:82 | a greedy match of the number pattern starting at a position always consumes at least one character and ends inside the line |
| Header.FirstIntAt | Schaap-To-SHETRAN-1Layer.py:82 | a line whose first match is a run of digits, not followed by a decimal point, with no digit later on the line, reads as that run's value (negated after a minus sign) |
| Header.LaterDecimalRejected | Schaap-To-SHETRAN-1Layer.py:82 | `ncols 4` reads as 4, but `ncols 4 2.5` cannot be read, because every match is converted before the first is taken |
| Header.FirstIntShowInt | Schaap-To-SHETRAN-1Layer.py:82 | any integer written after text without digits or minus signs, and before text without digits that does not start with a point, is read back as itself |
| Header.DigitsValueShowNat | Schaap-To-SHETRAN-1Layer.py:82 | reading the decimal digits of a natural number gives the number back |
| Header.Classify | Schaap-To-SHETRAN-1Layer.py:79-88 | a line is an ncols line exactly when it contains `ncols`, and an nrows line exactly when it contains `nrows` but not `ncols` (the `elif`); both carry the reading of their first number |
| Header.Step | Schaap-To-SHETRAN-1Layer.py:81-85 | one pass of the loop: an unreadable size line fails with its line number and reason; otherwise the size the line sets takes the line's number, and the other size keeps its value |
| Header.Scan | Schaap-To-SHETRAN-1Layer.py:79-88 | the scan succeeds exactly when every size line holds a readable integer; a failure names a line of the file |
| Header.ScanFailsAtFirstBadLine | Schaap-To-SHETRAN-1Layer.py:79-86 | a failed scan names the first unreadable size line, with that line's reason, and every size line before it is readable |
| Header.ScanUnsetIffNoLine | Schaap-To-SHETRAN-1Layer.py:79-88 | after a successful scan, a size is unset exactly when no line sets it |
| Header.ScanTakesLastLine | Schaap-To-SHETRAN-1Layer.py:79-88 | a size that is set holds the number of the last line that sets it; no later line sets it |
| Header.BothKeysCountAsNcols | Schaap-To-SHETRAN-1Layer.py:81-85 | a line that mentions both keys sets Ncols and leaves Nrows alone |
| Header.ReadDims | Schaap-To-SHETRAN-1Layer.py:79-94 | a failed scan's error, the first unreadable size line and its reason, is returned unchanged; the size is read exactly when the scan succeeds and sets both sizes, and it equals the scanned values; a missing Nrows is reported before a missing Ncols, as `[Nrows,Ncols]` is evaluated left to right |
| SubCats.BuildSubCats | Schaap-To-SHETRAN-1Layer.py:94-103 | an nrows × ncols grid whose cell (r, c) is 1 + ncols·r + c |
| SubCats.FlattenSubCats | Schaap-To-SHETRAN-1Layer.py:99-116 | the flattened sub-category grid is 1, 2, …, nrows·ncols in order |
| SubCats.SubCatIdsDistinctInRange | Schaap-To-SHETRAN-1Layer.py:99 | every sub-category number lies in 1..nrows·ncols, and different cells get different numbers |
| Ksat.Convert | Schaap-To-SHETRAN-1Layer.py:120 | -999 passes through; every other conductivity is divided by 100 |
| Ksat.ConvertAll | Schaap-To-SHETRAN-1Layer.py:120 | same length; no-data cells unchanged; every other cell scaled by 0.01 |
| Ksat.RestoreConvert | Schaap-To-SHETRAN-1Layer.py:120 | in exact arithmetic, the conversion can be undone for every value except -99900 |
| Ksat.ConvertCollision | Schaap-To-SHETRAN-1Layer.py:120 | in exact arithmetic, the only two inputs the conversion confuses are -999 and -99900 |
| Ksat.ConvertExamples | Schaap-To-SHETRAN-1Layer.py:120 | 100 cm/d becomes 1 m/d and -999 stays -999 |
| Dedup.IndexOf | Schaap-To-SHETRAN-1Layer.py:130 | the position of the first occurrence of a value |
| Dedup.Unique | Schaap-To-SHETRAN-1Layer.py:128 | no duplicates; every value of the input occurs in it and nothing else does; never longer than the input |
| Dedup.UniqueFirstSeen | Schaap-To-SHETRAN-1Layer.py:128 | the distinct values appear in the order of their first occurrence in the input |
| Dedup.FirstSeenOrderDetermines | Schaap-To-SHETRAN-1Layer.py:128 | two duplicate-free lists that cover the same input in first-seen order are equal |
| Dedup.UniqueCharacterised | Schaap-To-SHETRAN-1Layer.py:128 | a list is the result of `unique` exactly when it is duplicate-free, covers exactly the input's values and keeps first-seen order |
| Dedup.UniquePrefix | Schaap-To-SHETRAN-1Layer.py:128 | the distinct values of a prefix are a prefix of the distinct values of the whole |
| Dedup.IndexDict | Schaap-To-SHETRAN-1Layer.py:129-130 | the dictionary maps every distinct value to its own position among the distinct values |
| Dedup.SuperCatsOf | Schaap-To-SHETRAN-1Layer.py:132-139 | one ID per cell; each ID indexes the distinct values, and the value at that index is the cell's |
| Dedup.AssignSuperCats | Schaap-To-SHETRAN-1Layer.py:132-139 | the append loop over the cells produces exactly the ID list |
| Dedup.SuperCatsSameIffSameValue | Schaap-To-SHETRAN-1Layer.py:132-139 | two cells share an ID exactly when they share a value |
| Dedup.SamePatternSameIds | Schaap-To-SHETRAN-1Layer.py:128-139 | two grids that repeat their values at the same cells have equally many distinct values and give every cell the same ID |
| Dedup.SuperCatsInRange | Schaap-To-SHETRAN-1Layer.py:132-139 | every ID lies in 0..k-1, where k is the number of distinct values |
| Dedup.SeenValueKeepsId | Schaap-To-SHETRAN-1Layer.py:135-137 | a cell whose value occurred before gets the ID of that earlier occurrence |
| Dedup.NewValueGetsNextId | Schaap-To-SHETRAN-1Layer.py:135-137 | a cell whose value is new gets the next unused ID |
| Dedup.SuperCatsFirstSeen | Schaap-To-SHETRAN-1Layer.py:156 | the distinct IDs, in first-seen order, are exactly 0, 1, …, k-1, and the first cell's ID is 0 |
| Dedup.ConstantCollapses | Schaap-To-SHETRAN-1Layer.py:128-139 | a grid holding one value everywhere (all no-data, say) gives a single category, and every cell gets ID 0 |
| Grid.FlattenRowMajor | Schaap-To-SHETRAN-1Layer.py:116-122 | `flatten` is row-major: a list is the flattening of a rectangular grid exactly when it has one entry per cell and holds cell (r, c) at position r·ncols + c |
| Grid.FlattenLength | Schaap-To-SHETRAN-1Layer.py:116-122 | row-major flattening: a rectangular nrows × ncols grid flattens to nrows·ncols cells |
| Grid.FlattenCell | Schaap-To-SHETRAN-1Layer.py:116-122 | cell (r, c) of a rectangular grid lands at position r·ncols + c |
| Grid.Reshape | Schaap-To-SHETRAN-1Layer.py:143 | succeeds exactly when the list has nrows·ncols elements, and then gives an nrows × ncols grid; otherwise it reports the size and the requested shape |
| Grid.ReshapeCell | Schaap-To-SHETRAN-1Layer.py:143 | cell (r, c) of the reshaped grid is element r·ncols + c of the list |
| Grid.FlattenReshape | Schaap-To-SHETRAN-1Layer.py:116-143 | flattening a reshaped list gives the list back |
| Grid.ReshapeFlatten | Schaap-To-SHETRAN-1Layer.py:116-143 | reshaping a flattened rectangular grid gives the grid back |
| Tables.Categories | Schaap-To-SHETRAN-1Layer.py:156 | the category column is 0, 1, …, k-1 |
| Tables.AllFitEvery | Schaap-To-SHETRAN-1Layer.py:166-174 | the table can be built exactly when every one of the five columns has as many distinct values as there are categories |
| Tables.FirstMisfit | Schaap-To-SHETRAN-1Layer.py:170-174 | no column is reported exactly when all fit; a reported column does not fit, is never θS, and every column assigned before it fits |
| Tables.PropertyRow | Schaap-To-SHETRAN-1Layer.py:166-175 | row i is category i and soil type i, holds the i-th distinct value of each parameter, and carries the open and close markers |
| Tables.PropertyRows | Schaap-To-SHETRAN-1Layer.py:166-175 | the first m rows of the table, row i being row i of the table |
| Tables.BuildProperties | Schaap-To-SHETRAN-1Layer.py:156-175 | the table is built exactly when all columns fit, with k rows, row i describing category i; otherwise the error names the first misfit column with its distinct-value count and the row count |
| Tables.BuildDetails | Schaap-To-SHETRAN-1Layer.py:188-194 | one row per category: SuperCats and SoilType equal the category, layer 1, depth 2.0, with the open and close markers |
| Tables.CellRowAgrees | Schaap-To-SHETRAN-1Layer.py:132-170 | every cell of the θS grid finds its own value in the property row its ID points at |
| Tables.RowHasCell | Schaap-To-SHETRAN-1Layer.py:132-170 | every property row is the category of at least one cell |
| Tables.ColumnsAgree | Schaap-To-SHETRAN-1Layer.py:158-174 | in a built table, every parameter has exactly as many distinct values as there are rows |
| Tables.ConsistentRowsDescribeCells | Schaap-To-SHETRAN-1Layer.py:156-174 | when every parameter grid repeats its values where θS does, the table is built and the row a cell's ID points at holds all five of that cell's values |
| Tables.IndependentColumnsExample | Schaap-To-SHETRAN-1Layer.py:156-174 | θS [0.4, 0.4, 0.5] with θR [0.1, 0.2, 0.1] builds a two-row table whose row 1, the category of the last cell only, holds θR 0.2 while that cell holds 0.1 |
| Tables.DetailsMatchProperties | Schaap-To-SHETRAN-1Layer.py:168-192 | the two tables have the same length and list the same categories and soil types row by row |
| Pipeline.ConvertedKsat | Schaap-To-SHETRAN-1Layer.py:119-120 | the converted conductivity series inside a run: one value per cell, -999 cells unchanged, and every other cell divided by 100 |
| Pipeline.MisSized | Schaap-To-SHETRAN-1Layer.py:109-113 | the first of θR, Ksat, α and n, in that order, whose grid does not have the header's number of cells, if any: every column before the reported one has the right size. Lines 109-113 do no size check themselves. This guard stands for the size the reader is asked for, which it is assumed to return |
| Pipeline.RunSized | Schaap-To-SHETRAN-1Layer.py:116-194 | once a non-negative size is read: a θS cell count that differs from the size fails the reshape. Otherwise a mis-sized grid fails with the first such column. Otherwise a misfit column fails with the table's own error. Otherwise the map and tables are as for `Run` |
| Pipeline.Run | Schaap-To-SHETRAN-1Layer.py:76-194 | each error names its cause, in the script's order. The header error comes first and is passed on unchanged. A negative size comes next (`np.zeros`), then a θS cell count that differs from the size (`reshape`), then the first mis-sized grid, then the first column that does not fit. Run succeeds exactly when the size is read, is non-negative, matches the cell count of every grid, and every column fits; then the map has the header's shape and flattens to the cell IDs, and both tables have one row per distinct θS value: property rows as `DescribesCategory` states, and detail rows with both markers, the category as SuperCats and SoilType, layer 1 and depth 2.0 |
| Pipeline.MapCellAt | Schaap-To-SHETRAN-1Layer.py:116-143 | map cell (r, c) is the ID of grid cell (r, c) |
| Pipeline.MapCellRow | Schaap-To-SHETRAN-1Layer.py:116-175 | the ID at map cell (r, c) names a property row whose θS is the θS of grid cell (r, c) |
| Pipeline.MapCellsAgree | Schaap-To-SHETRAN-1Layer.py:132-143 | two grid cells with the same value get the same map entry |
| Pipeline.MapCellsSameIffSameValue | Schaap-To-SHETRAN-1Layer.py:132-143 | two map cells are equal exactly when the grid cells beneath them hold the same θS |
| Pipeline.RunThetaS | Schaap-To-SHETRAN-1Layer.py:156-170 | property row i of a successful run holds the i-th distinct θS value |
| Pipeline.TwoByTwoExample | Schaap-To-SHETRAN-1Layer.py:128-170 | the θS grid [[0.4, 0.4], [0.5, 0.4]] gives the map [[0, 0], [1, 0]] and two property rows, for 0.4 and then 0.5 |
| Pipeline.KsatColumnUnconverted | Schaap-To-SHETRAN-1Layer.py:120-160 | a single cell of 100 cm/d appears as 100.0 in the table, while the converted series holds 1.0 |
| Pipeline.AllNoDataOneCategory | Schaap-To-SHETRAN-1Layer.py:128-139 | a θS grid that is no-data everywhere gives one category and a map of zeros |

## Left out

- Finding the raster files with `glob` (line 65), opening the first one and reading its lines (lines 70-73): the header lines are an input.
- Reading the five rasters (`ASCtoDfParam`, lines 60 and 109-113): `CustomFunctionsToSHETRAN` is not part of this model, so the five grids are inputs, taken as they are returned. Which file feeds which parameter depends on the order of the directory listing; the model takes the grids already assigned.
- Writing the map and the two tables to text files (lines 146-150, 178-182, 198-203): I/O. The model stops at the map and the table rows. The column headings are not modelled, and neither is the fact that a file already written stays written when a later step fails.
- The configuration strings (lines 42-48) and the change of working directory (line 59): paths and resolution names only.
- The sub-category grid (lines 94-103, 116) is built and flattened. Its only later use is as the template of `reindex_like` at line 142, whose result line 143 overwrites at once. `Run` keeps only its one observable effect, the failure on a negative size. The grid itself is modelled on its own by `SubCats.BuildSubCats`.
- Floating point: parameter values are modelled as exact `real` numbers, and values are compared with plain equality. NaN, whose `unique` and dictionary behaviour differs, is not modelled. The 0.01 factor is exact, not binary floating point.
- Header.FirstInt: the number pattern is matched on ASCII digits only, while Python's `\d` and `int` also accept other Unicode decimal digits.
- Header.ReadDims: the sizes are unbounded integers, as Python's `int` is. The limits come from elsewhere and are not modelled. `np.zeros` on line 94 rejects sizes beyond the platform's index type. The IDs are stored as 64-bit integers. On Python 3.11 and later, `int` also rejects a number of more than 4300 digits.
- Pipeline.Run: the reader returns every grid at the header's size, so `Run` gives an error for any θR, Ksat, α or n grid with a different number of cells. It makes no claim about what the table code would do with such a grid.
- Other ways the script can stop are outside the model. These are too few raster files for lines 70 and 109-113, a failure inside the reader, running out of memory in `np.zeros`, and failures while writing the output files.

=== FILE: dedup.dfy ===
/**
 * Stable first-seen de-duplication of the flattened θSat cells and the
 * assignment of a supercategory ID to every cell: pandas `Series.unique`,
 * the value→index dictionary built from it, and the lookup loop that maps
 * each cell to the index of its value.
 */
module Dedup {

  /** No value occurs twice in `s`. */
  predicate NoDup<T(==)>(s: seq<T>) {
    forall i, j :: 0 <= i < j < |s| ==> s[i] != s[j]
  }

  /** The IDs `0, 1, ..., k-1` in ascending order. */
  function Range(k: nat): (r: seq<nat>)
    ensures |r| == k
    ensures forall i :: 0 <= i < k ==> r[i] == i
  {
    seq(k, i => i)
  }

  /** Position of the first occurrence of `x` in `s`. */
  function IndexOf<T(==)>(s: seq<T>, x: T): (i: nat)
    requires x in s
    ensures i < |s| && s[i] == x
    ensures forall j :: 0 <= j < i ==> s[j] != x
  {
    if s[0] == x then 0 else 1 + IndexOf(s[1..], x)
  }

  /**
   * The distinct values of `s`, each listed once, at the place where `s`
   * first shows it (pandas `unique`).
   */
  function Unique<T(==)>(s: seq<T>): (u: seq<T>)
    ensures NoDup(u)
    ensures forall i :: 0 <= i < |u| ==> u[i] in s
    ensures forall i :: 0 <= i < |s| ==> s[i] in u
    ensures |u| <= |s|
    decreases |s|
  {
    if |s| == 0 then []
    else
      var front := s[..|s| - 1];
      var last := s[|s| - 1];
      assert s == front + [last];
      var u := Unique(front);
      if last in u then u else u + [last]
  }

  /**
   * Every entry of `u` occurs in `s`, and `u` lists its entries in the
   * order in which `s` first shows them.
   */
  predicate FirstSeenOrdered<T(==)>(s: seq<T>, u: seq<T>) {
    && (forall i :: 0 <= i < |u| ==> u[i] in s)
    && (forall i, j :: 0 <= i < j < |u| ==> IndexOf(s, u[i]) < IndexOf(s, u[j]))
  }

  /** A value seen in a prefix of `s` is first seen at the same place in `s` itself. */
  lemma IndexOfPrefix<T>(s: seq<T>, m: nat, x: T)
    requires m <= |s| && x in s[..m]
    ensures x in s && IndexOf(s, x) == IndexOf(s[..m], x)
  {
    var i := IndexOf(s[..m], x);
    assert forall j :: 0 <= j <= i ==> s[j] == s[..m][j];
  }

  /** The values of a prefix's unique list are first seen in `s` where the prefix first shows them. */
  lemma PrefixUniqueIndexes<T>(s: seq<T>, n: nat)
    requires n <= |s|
    ensures forall i :: 0 <= i < |Unique(s[..n])| ==>
      Unique(s[..n])[i] in s && IndexOf(s, Unique(s[..n])[i]) == IndexOf(s[..n], Unique(s[..n])[i])
  {
    var uf := Unique(s[..n]);
    forall i | 0 <= i < |uf|
      ensures uf[i] in s && IndexOf(s, uf[i]) == IndexOf(s[..n], uf[i])
    {
      IndexOfPrefix(s, n, uf[i]);
    }
  }

  /** A value that the first `n` cells do not show is first seen at cell `n`. */
  lemma NewValueFirstSeen<T>(s: seq<T>, n: nat)
    requires n < |s| && s[n] !in s[..n]
    ensures IndexOf(s, s[n]) == n
  {
    forall j | 0 <= j < n ensures s[j] != s[n] {
      assert s[j] == s[..n][j];
    }
  }

  /** A non-empty sequence is its front followed by its last element. */
  lemma FrontLast<T>(s: seq<T>)
    requires |s| > 0
    ensures s[..|s| - 1] + [s[|s| - 1]] == s
  {
  }

  /** A prefix's unique list, in first-seen order of the prefix, is in first-seen order of `s`. */
  lemma FirstSeenLift<T>(s: seq<T>, n: nat)
    requires n <= |s| && FirstSeenOrdered(s[..n], Unique(s[..n]))
    ensures FirstSeenOrdered(s, Unique(s[..n]))
    ensures forall i :: 0 <= i < |Unique(s[..n])| ==> IndexOf(s, Unique(s[..n])[i]) < n
  {
    PrefixUniqueIndexes(s, n);
  }

  /** A value first seen after every listed value may be appended to a first-seen list. */
  lemma FirstSeenAppend<T>(s: seq<T>, u: seq<T>, n: nat)
    requires n < |s| && FirstSeenOrdered(s, u)
    requires forall i :: 0 <= i < |u| ==> IndexOf(s, u[i]) < n
    requires IndexOf(s, s[n]) == n
    ensures FirstSeenOrdered(s, u + [s[n]])
  {
    var v := u + [s[n]];
    assert forall i :: 0 <= i < |u| ==> v[i] == u[i];
  }

  /** First-seen order survives one more cell. */
  lemma FirstSeenSnoc<T>(s: seq<T>)
    requires |s| > 0 && FirstSeenOrdered(s[..|s| - 1], Unique(s[..|s| - 1]))
    ensures FirstSeenOrdered(s, Unique(s))
  {
    var n := |s| - 1;
    FirstSeenLift(s, n);
    FrontLast(s);
    UniqueSnoc(s[..n], s[n]);
    if s[n] !in Unique(s[..n]) {
      InUnique(s[..n], s[n]);
      NewValueFirstSeen(s, n);
      FirstSeenAppend(s, Unique(s[..n]), n);
    }
  }

  /** Unique lists the distinct values in first-seen order. */
  lemma {:induction false} UniqueFirstSeen<T>(s: seq<T>)
    ensures FirstSeenOrdered(s, Unique(s))
    decreases |s|
  {
    if |s| > 0 {
      UniqueFirstSeen(s[..|s| - 1]);
      FirstSeenSnoc(s);
    }
  }

  /**
   * Two sequences that hold the same values, each listed in first-seen
   * order of `s`, are equal.
   */
  lemma {:induction false} FirstSeenOrderDetermines<T>(s: seq<T>, u: seq<T>, v: seq<T>)
    requires FirstSeenOrdered(s, u) && FirstSeenOrdered(s, v)
    requires forall x :: x in u <==> x in v
    ensures u == v
    decreases |u|
  {
    assert |v| > 0 ==> v[0] in u;
    if |u| > 0 {
      assert u[0] in v;
      assert v[0] in u;
      assert u[0] == v[0];
      var u', v' := u[1..], v[1..];
      forall x
        ensures x in u' <==> x in v'
      {
        if x in u' {
          var i :| 1 <= i < |u| && u[i] == x;
          assert IndexOf(s, u[0]) < IndexOf(s, u[i]);
          assert x in v;
        }
        if x in v' {
          var j :| 1 <= j < |v| && v[j] == x;
          assert IndexOf(s, v[0]) < IndexOf(s, v[j]);
          assert x in u;
        }
      }
      assert FirstSeenOrdered(s, u') by {
        forall i, j | 0 <= i < j < |u'| ensures IndexOf(s, u'[i]) < IndexOf(s, u'[j]) {
          assert u'[i] == u[i + 1] && u'[j] == u[j + 1];
        }
      }
      assert FirstSeenOrdered(s, v') by {
        forall i, j | 0 <= i < j < |v'| ensures IndexOf(s, v'[i]) < IndexOf(s, v'[j]) {
          assert v'[i] == v[i + 1] && v'[j] == v[j + 1];
        }
      }
      FirstSeenOrderDetermines(s, u', v');
      assert u == [u[0]] + u' && v == [v[0]] + v';
    }
  }

  /**
   * Reference characterisation of pandas `unique`: a sequence is the
   * unique list of `s` exactly when it holds every value of `s` and lists
   * only values of `s`, in first-seen order.
   */
  lemma UniqueCharacterised<T>(s: seq<T>, u: seq<T>)
    ensures u == Unique(s) <==> FirstSeenOrdered(s, u) && forall x :: x in s ==> x in u
  {
    UniqueFirstSeen(s);
    if FirstSeenOrdered(s, u) && forall x :: x in s ==> x in u {
      FirstSeenOrderDetermines(s, u, Unique(s));
    }
  }

  /** The unique list of a prefix is a prefix of the unique list. */
  lemma {:induction false} UniquePrefix<T>(s: seq<T>, m: nat)
    requires m <= |s|
    ensures Unique(s[..m]) <= Unique(s)
    decreases |s| - m
  {
    if m < |s| {
      var front := s[..|s| - 1];
      assert front[..m] == s[..m];
      UniquePrefix(front, m);
    } else {
      assert s[..m] == s;
    }
  }

  /** The value→index dictionary built from the unique list (`set_index(...).to_dict()`). */
  function IndexDict<T(==)>(u: seq<T>): (d: map<T, nat>)
    requires NoDup(u)
    ensures d.Keys == set x | x in u
    ensures forall i :: 0 <= i < |u| ==> u[i] in d && d[u[i]] == i
  {
    map x | x in u :: IndexOf(u, x)
  }

  /**
   * The supercategory ID of every cell: the index, in the unique list, of
   * the cell's value.
   */
  function SuperCatsOf<T(==)>(s: seq<T>): (ids: seq<nat>)
    ensures |ids| == |s|
    ensures forall i :: 0 <= i < |s| ==> ids[i] < |Unique(s)| && Unique(s)[ids[i]] == s[i]
  {
    var u := Unique(s);
    seq(|s|, i requires 0 <= i < |s| => IndexOf(u, s[i]))
  }

  /** Positions of a sequence without repeats that hold the same value are the same position. */
  lemma NoDupSameIndex<T>(u: seq<T>, a: nat, b: nat)
    requires NoDup(u) && a < |u| && b < |u| && u[a] == u[b]
    ensures a == b
  {
  }

  /** Two cells get the same supercategory ID exactly when their θSat values are equal. */
  lemma SuperCatsSameIffSameValue<T>(s: seq<T>, i: nat, j: nat)
    requires i < |s| && j < |s|
    ensures SuperCatsOf(s)[i] == SuperCatsOf(s)[j] <==> s[i] == s[j]
  {
    var ids := SuperCatsOf(s);
    if s[i] == s[j] {
      NoDupSameIndex(Unique(s), ids[i], ids[j]);
    }
  }

  /** Every supercategory ID indexes the unique list: it lies in `[0, k)`. */
  lemma SuperCatsInRange<T>(s: seq<T>)
    ensures forall i :: 0 <= i < |s| ==> 0 <= SuperCatsOf(s)[i] < |Unique(s)|
  {
  }

  /**
   * The lookup loop of the script: every cell's value is looked up in the
   * value→index dictionary and the index appended to the ID list.
   */
  method AssignSuperCats<T(==)>(cells: seq<T>) returns (ids: seq<nat>)
    ensures ids == SuperCatsOf(cells)
  {
    var u := Unique(cells);
    var dict := IndexDict(u);
    ghost var expected := SuperCatsOf(cells);
    ids := [];
    var item := 0;
    while item < |cells|
      invariant item <= |cells|
      invariant |ids| == item
      invariant forall i :: 0 <= i < item ==> ids[i] == expected[i]
    {
      var value := cells[item];
      assert u[expected[item]] == value;
      ids := ids + [dict[value]];
      item := item + 1;
    }
  }

  /**
   * A value seen among the first `n` cells gets the ID of its earlier
   * occurrences, one already given out to those cells.
   */
  lemma SeenValueKeepsId<T>(s: seq<T>, n: nat)
    requires n < |s| && s[n] in s[..n]
    ensures forall j :: 0 <= j < n && s[j] == s[n] ==> SuperCatsOf(s)[n] == SuperCatsOf(s)[j]
    ensures SuperCatsOf(s)[n] < |Unique(s[..n])|
  {
    forall j | 0 <= j < n && s[j] == s[n]
      ensures SuperCatsOf(s)[n] == SuperCatsOf(s)[j]
    {
      SuperCatsSameIffSameValue(s, n, j);
    }
    var u := Unique(s);
    var p := Unique(s[..n]);
    var id := SuperCatsOf(s)[n];
    UniquePrefix(s, n);
    var j :| 0 <= j < n && s[..n][j] == s[n];
    assert s[n] in p;
    var k := IndexOf(p, s[n]);
    assert u[k] == s[n];
    NoDupSameIndex(u, k, id);
  }

  /**
   * A value not seen among the first `n` cells gets the next unused ID,
   * the number of distinct values seen so far.
   */
  lemma NewValueGetsNextId<T>(s: seq<T>, n: nat)
    requires n < |s| && s[n] !in s[..n]
    ensures SuperCatsOf(s)[n] == |Unique(s[..n])|
  {
    var u := Unique(s);
    var p := Unique(s[..n]);
    var id := SuperCatsOf(s)[n];
    UniquePrefix(s, n + 1);
    assert s[..n + 1][..n] == s[..n];
    assert s[..n + 1][n] == s[n];
    assert s[n] !in p;
    assert Unique(s[..n + 1]) == p + [s[n]];
    assert u[|p|] == s[n];
    NoDupSameIndex(u, |p|, id);
  }

  /** A value is in the unique list exactly when it is in the sequence. */
  lemma InUnique<T>(s: seq<T>, x: T)
    ensures x in Unique(s) <==> x in s
  {
    var u := Unique(s);
    if x in s {
      var i :| 0 <= i < |s| && s[i] == x;
      assert s[i] in u;
    }
    if x in u {
      var i :| 0 <= i < |u| && u[i] == x;
      assert u[i] in s;
    }
  }

  /** Appending a value extends the unique list exactly when the value is new. */
  lemma UniqueSnoc<T>(s: seq<T>, x: T)
    ensures x in Unique(s) ==> Unique(s + [x]) == Unique(s)
    ensures x !in Unique(s) ==> Unique(s + [x]) == Unique(s) + [x]
  {
    assert (s + [x])[..|s|] == s;
  }

  /**
   * Appending an ID to a list whose distinct IDs are `0..k-1` keeps them
   * `0..k-1` when the ID was already given out and makes them `0..k` when
   * it is the next one.
   */
  lemma RangeSnoc(ids: seq<nat>, k: nat, x: nat)
    requires Unique(ids) == Range(k) && x <= k
    ensures Unique(ids + [x]) == Range(if x < k then k else k + 1)
  {
    UniqueSnoc(ids, x);
    if x < k {
      assert Range(k)[x] == x;
    } else {
      RangeExtend(k);
    }
  }

  /** `k` is not among `0..k-1`, and appending it gives `0..k`. */
  lemma RangeExtend(k: nat)
    ensures k !in Range(k)
    ensures Range(k) + [k] == Range(k + 1)
  {
    assert forall i :: 0 <= i < k ==> Range(k)[i] < k;
  }

  /**
   * First-seen numbering, stated for every prefix of the cells: the IDs of
   * the first `n` cells, de-duplicated, are `0, 1, ..., m-1` where `m` is
   * the number of distinct values among those cells.
   */
  lemma {:induction false} SuperCatsPrefixNumbering<T>(s: seq<T>, n: nat)
    requires n <= |s|
    ensures Unique(SuperCatsOf(s)[..n]) == Range(|Unique(s[..n])|)
    decreases n
  {
    var ids := SuperCatsOf(s);
    if n == 0 {
      assert ids[..0] == [];
      assert s[..0] == [];
    } else {
      var m := n - 1;
      SuperCatsPrefixNumbering(s, m);
      if s[m] in s[..m] {
        SeenValueKeepsId(s, m);
      } else {
        NewValueGetsNextId(s, m);
      }
      NumberingStep(s, ids, m);
    }
  }

  /**
   * One step of first-seen numbering over any ID list `ids` that numbers
   * the values of `s`: if the IDs of the first `m` cells are `0..k-1` for
   * the `k` distinct values among them, and cell `m` gets an old ID when its
   * value was seen and the ID `k` when it was not, the same holds of the
   * first `m + 1` cells.
   */
  lemma NumberingStep<T>(s: seq<T>, ids: seq<nat>, m: nat)
    requires m < |s| && |ids| == |s|
    requires Unique(ids[..m]) == Range(|Unique(s[..m])|)
    requires s[m] in s[..m] ==> ids[m] < |Unique(s[..m])|
    requires s[m] !in s[..m] ==> ids[m] == |Unique(s[..m])|
    ensures Unique(ids[..m + 1]) == Range(|Unique(s[..m + 1])|)
  {
    var front, x := s[..m], s[m];
    var k := |Unique(front)|;
    assert s[..m + 1] == front + [x];
    UniqueSnoc(front, x);
    InUnique(front, x);
    assert ids[..m + 1] == ids[..m] + [ids[m]];
    RangeSnoc(ids[..m], k, ids[m]);
  }

  /**
   * First-seen numbering of the whole grid: the distinct IDs, in the order
   * they appear, are exactly `0, 1, ..., k-1` where `k` is the number of
   * distinct θSat values, and the first cell gets ID 0.
   */
  lemma SuperCatsFirstSeen<T>(s: seq<T>)
    ensures Unique(SuperCatsOf(s)) == Range(|Unique(s)|)
    ensures |s| > 0 ==> SuperCatsOf(s)[0] == 0
  {
    SuperCatsPrefixNumbering(s, |s|);
    assert SuperCatsOf(s)[..|s|] == SuperCatsOf(s);
    assert s[..|s|] == s;
    if |s| > 0 {
      assert s[..0] == [];
      NewValueGetsNextId(s, 0);
    }
  }

  /**
   * `a` and `b` have the same length and hold equal values at exactly the
   * same pairs of positions.
   */
  predicate SamePattern<T(==), U(==)>(a: seq<T>, b: seq<U>) {
    && |a| == |b|
    && forall i, j :: 0 <= i < |a| && 0 <= j < |a| ==> (a[i] == a[j] <==> b[i] == b[j])
  }

  /** A prefix one cell longer is the shorter prefix followed by that cell. */
  lemma PrefixSnoc<T>(s: seq<T>, m: nat)
    requires m < |s|
    ensures s[..m + 1] == s[..m] + [s[m]]
  {
  }

  /** One more cell adds one distinct value exactly when its value is new. */
  lemma UniqueCountStep<T>(s: seq<T>, m: nat)
    requires m < |s|
    ensures |Unique(s[..m + 1])| == |Unique(s[..m])| + (if s[m] in s[..m] then 0 else 1)
  {
    assert s[..m + 1] == s[..m] + [s[m]];
    UniqueSnoc(s[..m], s[m]);
    InUnique(s[..m], s[m]);
  }

  /** Cell `m` repeats an earlier value in `a` exactly when it does in `b`. */
  lemma SamePatternSeen<T, U>(a: seq<T>, b: seq<U>, m: nat)
    requires SamePattern(a, b) && m < |a|
    ensures a[m] in a[..m] <==> b[m] in b[..m]
  {
    if a[m] in a[..m] {
      var j :| 0 <= j < m && a[..m][j] == a[m];
      assert b[..m][j] == b[m];
    }
    if b[m] in b[..m] {
      var j :| 0 <= j < m && b[..m][j] == b[m];
      assert a[..m][j] == a[m];
    }
  }

  /** Cell `m` gets the same ID in both sequences once every earlier cell does. */
  lemma SamePatternStep<T, U>(a: seq<T>, b: seq<U>, m: nat)
    requires SamePattern(a, b) && m < |a|
    requires |Unique(a[..m])| == |Unique(b[..m])|
    requires SuperCatsOf(a)[..m] == SuperCatsOf(b)[..m]
    ensures SuperCatsOf(a)[m] == SuperCatsOf(b)[m]
  {
    SamePatternSeen(a, b, m);
    if a[m] in a[..m] {
      var j :| 0 <= j < m && a[..m][j] == a[m];
      assert a[j] == a[m] && b[j] == b[m];
      assert SuperCatsOf(a)[..m][j] == SuperCatsOf(b)[..m][j];
      SeenValueKeepsId(a, m);
      SeenValueKeepsId(b, m);
    } else {
      NewValueGetsNextId(a, m);
      NewValueGetsNextId(b, m);
    }
  }

  /** Sequences with the same pattern of repeats number their first `n` cells alike. */
  lemma {:induction false} SamePatternPrefix<T, U>(a: seq<T>, b: seq<U>, n: nat)
    requires SamePattern(a, b) && n <= |a|
    ensures |Unique(a[..n])| == |Unique(b[..n])|
    ensures SuperCatsOf(a)[..n] == SuperCatsOf(b)[..n]
    decreases n
  {
    if n > 0 {
      var m := n - 1;
      SamePatternPrefix(a, b, m);
      SamePatternSeen(a, b, m);
      UniqueCountStep(a, m);
      UniqueCountStep(b, m);
      SamePatternStep(a, b, m);
      PrefixSnoc(SuperCatsOf(a), m);
      PrefixSnoc(SuperCatsOf(b), m);
    }
  }

  /**
   * Two sequences that repeat their values at the same cells have the same
   * number of distinct values and give every cell the same ID.
   */
  lemma SamePatternSameIds<T, U>(a: seq<T>, b: seq<U>)
    requires SamePattern(a, b)
    ensures |Unique(a)| == |Unique(b)|
    ensures SuperCatsOf(a) == SuperCatsOf(b)
  {
    SamePatternPrefix(a, b, |a|);
    assert a[..|a|] == a && b[..|b|] == b;
    assert SuperCatsOf(a)[..|a|] == SuperCatsOf(a) && SuperCatsOf(b)[..|b|] == SuperCatsOf(b);
  }

  /**
   * A grid whose cells all carry the same value (an all no-data grid)
   * collapses to the single supercategory 0.
   */
  lemma {:induction false} ConstantCollapses<T>(s: seq<T>, v: T)
    requires |s| > 0
    requires forall i :: 0 <= i < |s| ==> s[i] == v
    ensures Unique(s) == [v]
    ensures forall i :: 0 <= i < |s| ==> SuperCatsOf(s)[i] == 0
  {
    assert FirstSeenOrdered(s, [v]) by {
      assert [v][0] == s[0];
    }
    UniqueCharacterised(s, [v]);
  }
}

=== FILE: grid.dfy ===
/**
 * Row-major flattening of a 2-D grid and its inverse, NumPy `reshape`:
 * the grids of the conversion are turned into flat cell sequences and the
 * flat supercategory IDs are turned back into a map of the grid's shape.
 */
module Grid {
  import opened Results

  /** `g` has `nrows` rows of `ncols` entries each. */
  predicate IsRect<T>(g: seq<seq<T>>, nrows: nat, ncols: nat) {
    |g| == nrows && forall r :: 0 <= r < |g| ==> |g[r]| == ncols
  }

  /** The rows of `g` one after the other (NumPy `flatten`, row-major order). */
  function Flatten<T>(g: seq<seq<T>>): (s: seq<T>)
    decreases |g|
  {
    if |g| == 0 then [] else Flatten(g[..|g| - 1]) + g[|g| - 1]
  }

  lemma MulSucc(a: nat, b: nat)
    ensures (a + 1) * b == a * b + b
  {
  }

  lemma MulMonotone(a: nat, b: nat, c: nat)
    requires a <= b
    ensures a * c <= b * c
  {
  }

  /** Row `r` of an `nrows × ncols` grid ends at or before flat position `nrows * ncols`. */
  lemma RowEndBound(r: nat, nrows: nat, ncols: nat)
    requires r < nrows
    ensures r * ncols + ncols <= nrows * ncols
  {
    MulSucc(r, ncols);
    MulMonotone(r + 1, nrows, ncols);
  }

  /** A rectangular grid flattens to exactly `nrows * ncols` entries. */
  lemma {:induction false} FlattenLength<T>(g: seq<seq<T>>, nrows: nat, ncols: nat)
    requires IsRect(g, nrows, ncols)
    ensures |Flatten(g)| == nrows * ncols
    decreases nrows
  {
    if nrows > 0 {
      var front := g[..nrows - 1];
      assert IsRect(front, nrows - 1, ncols);
      FlattenLength(front, nrows - 1, ncols);
      MulSucc(nrows - 1, ncols);
    }
  }

  /** Flattening a rectangular grid puts cell (r, c) at flat position `r * ncols + c`. */
  lemma {:induction false} FlattenCell<T>(g: seq<seq<T>>, nrows: nat, ncols: nat, r: nat, c: nat)
    requires IsRect(g, nrows, ncols) && r < nrows && c < ncols
    ensures r * ncols + c < |Flatten(g)| && Flatten(g)[r * ncols + c] == g[r][c]
    decreases nrows
  {
    var front := g[..nrows - 1];
    assert IsRect(front, nrows - 1, ncols);
    FlattenLength(front, nrows - 1, ncols);
    FlattenLength(g, nrows, ncols);
    RowEndBound(r, nrows, ncols);
    var flat := Flatten(front);
    assert Flatten(g) == flat + g[nrows - 1];
    if r < nrows - 1 {
      FlattenCell(front, nrows - 1, ncols, r, c);
      RowEndBound(r, nrows - 1, ncols);
      assert Flatten(g)[r * ncols + c] == flat[r * ncols + c];
    } else {
      assert r * ncols + c == |flat| + c;
    }
  }

  /** Reshaping fails when the number of entries does not match the requested shape. */
  datatype ReshapeError = SizeMismatch(size: nat, nrows: nat, ncols: nat)

  /** Row `r` of width `ncols` lies inside `s`. */
  predicate RowFits<T>(s: seq<T>, ncols: nat, r: nat) {
    r * ncols + ncols <= |s|
  }

  /** Row `r` of the reshaped grid: the `ncols` entries from flat position `r * ncols` on. */
  function RowOf<T>(s: seq<T>, ncols: nat, r: nat): (row: seq<T>)
    requires RowFits(s, ncols, r)
    ensures |row| == ncols
    ensures forall c :: 0 <= c < ncols ==> row[c] == s[r * ncols + c]
  {
    s[r * ncols .. r * ncols + ncols]
  }

  /** The rows of the reshaped grid, `nrows` slices of `ncols` entries each. */
  function Rows<T>(s: seq<T>, nrows: nat, ncols: nat): (g: seq<seq<T>>)
    requires |s| == nrows * ncols
    ensures |g| == nrows
    ensures forall r :: 0 <= r < nrows ==> RowFits(s, ncols, r) && g[r] == RowOf(s, ncols, r)
  {
    assert forall r :: 0 <= r < nrows ==> RowFits(s, ncols, r) by {
      forall r | 0 <= r < nrows ensures RowFits(s, ncols, r) {
        RowEndBound(r, nrows, ncols);
      }
    }
    seq(nrows, r requires 0 <= r < nrows => RowOf(s, ncols, r))
  }

  /**
   * NumPy `reshape(nrows, ncols)` of a flat sequence: fails unless the
   * sequence has exactly `nrows * ncols` entries, and otherwise cuts it into
   * `nrows` rows of `ncols` entries (see ReshapeCell for where each entry
   * lands).
   */
  function Reshape<T>(s: seq<T>, nrows: nat, ncols: nat): (res: Result<seq<seq<T>>, ReshapeError>)
    ensures res.Ok? <==> |s| == nrows * ncols
    ensures res.Err? ==> res.error == SizeMismatch(|s|, nrows, ncols)
    ensures res.Ok? ==> IsRect(res.value, nrows, ncols)
  {
    if |s| != nrows * ncols then Err(SizeMismatch(|s|, nrows, ncols))
    else Ok(Rows(s, nrows, ncols))
  }

  /** Reshaping puts flat entry `r * ncols + c` at row `r`, column `c`. */
  lemma ReshapeCell<T>(s: seq<T>, nrows: nat, ncols: nat, r: nat, c: nat)
    requires |s| == nrows * ncols && r < nrows && c < ncols
    ensures r * ncols + c < |s| && Reshape(s, nrows, ncols).value[r][c] == s[r * ncols + c]
  {
    var g := Reshape(s, nrows, ncols).value;
    assert RowFits(s, ncols, r);
    assert g[r] == RowOf(s, ncols, r);
  }

  /** Every flat position below `nrows * ncols` is the position of exactly one cell. */
  lemma FlatIndexSplit(i: nat, nrows: nat, ncols: nat)
    requires i < nrows * ncols
    ensures ncols > 0 && i / ncols < nrows && i % ncols < ncols
    ensures (i / ncols) * ncols + i % ncols == i
  {
    if i / ncols >= nrows {
      MulMonotone(nrows, i / ncols, ncols);
    }
  }

  /** `s` holds cell (r, c) of `g` at position `r * ncols + c`. */
  predicate CellAt<T(==)>(g: seq<seq<T>>, ncols: nat, s: seq<T>, r: nat, c: nat) {
    r < |g| && c < |g[r]| && r * ncols + c < |s| && s[r * ncols + c] == g[r][c]
  }

  /** `s` has one entry per cell of `g` and holds cell (r, c) at position `r * ncols + c`. */
  predicate RowMajor<T(==)>(g: seq<seq<T>>, nrows: nat, ncols: nat, s: seq<T>) {
    && |s| == nrows * ncols
    && forall r: nat, c: nat :: r < nrows && c < ncols ==> CellAt(g, ncols, s, r, c)
  }

  lemma FlattenIsRowMajor<T>(g: seq<seq<T>>, nrows: nat, ncols: nat)
    requires IsRect(g, nrows, ncols)
    ensures RowMajor(g, nrows, ncols, Flatten(g))
  {
    FlattenLength(g, nrows, ncols);
    forall r: nat, c: nat | r < nrows && c < ncols
      ensures CellAt(g, ncols, Flatten(g), r, c)
    {
      FlattenCell(g, nrows, ncols, r, c);
    }
  }

  lemma RowMajorIsFlatten<T>(g: seq<seq<T>>, nrows: nat, ncols: nat, s: seq<T>)
    requires IsRect(g, nrows, ncols) && RowMajor(g, nrows, ncols, s)
    ensures s == Flatten(g)
  {
    FlattenLength(g, nrows, ncols);
    forall i | 0 <= i < |s|
      ensures s[i] == Flatten(g)[i]
    {
      FlatIndexSplit(i, nrows, ncols);
      var r, c := i / ncols, i % ncols;
      FlattenCell(g, nrows, ncols, r, c);
      assert CellAt(g, ncols, s, r, c);
    }
  }

  /**
   * Row-major order pins the flattening down: a sequence is the flattening
   * of a rectangular grid exactly when it has one entry per cell and holds
   * cell (r, c) at position `r * ncols + c`.
   */
  lemma FlattenRowMajor<T>(g: seq<seq<T>>, nrows: nat, ncols: nat, s: seq<T>)
    requires IsRect(g, nrows, ncols)
    ensures s == Flatten(g) <==> RowMajor(g, nrows, ncols, s)
  {
    FlattenIsRowMajor(g, nrows, ncols);
    if RowMajor(g, nrows, ncols, s) {
      RowMajorIsFlatten(g, nrows, ncols, s);
    }
  }

  /** Reshaping and then flattening gives back the flat sequence. */
  lemma FlattenReshape<T>(s: seq<T>, nrows: nat, ncols: nat)
    requires |s| == nrows * ncols
    ensures Reshape(s, nrows, ncols).Ok? && Flatten(Reshape(s, nrows, ncols).value) == s
  {
    var g := Reshape(s, nrows, ncols).value;
    FlattenLength(g, nrows, ncols);
    forall i | 0 <= i < |s|
      ensures Flatten(g)[i] == s[i]
    {
      FlatIndexSplit(i, nrows, ncols);
      var r, c := i / ncols, i % ncols;
      FlattenCell(g, nrows, ncols, r, c);
      ReshapeCell(s, nrows, ncols, r, c);
    }
  }

  /** Flattening a rectangular grid and reshaping it to the same shape gives back the grid. */
  lemma ReshapeFlatten<T>(g: seq<seq<T>>, nrows: nat, ncols: nat)
    requires IsRect(g, nrows, ncols)
    ensures Reshape(Flatten(g), nrows, ncols) == Ok(g)
  {
    FlattenLength(g, nrows, ncols);
    var h := Reshape(Flatten(g), nrows, ncols).value;
    forall r | 0 <= r < nrows
      ensures h[r] == g[r]
    {
      forall c | 0 <= c < ncols
        ensures h[r][c] == g[r][c]
      {
        FlattenCell(g, nrows, ncols, r, c);
        ReshapeCell(Flatten(g), nrows, ncols, r, c);
      }
    }
    assert h == g;
  }
}

=== FILE: header.dfy ===
/**
 * Reading the grid size from the ASCII-grid header: every line that
 * contains `ncols` (or, failing that, `nrows`) sets that dimension to the
 * first optionally signed number on the line, read as an integer.
 */
module Header {
  import opened Results

  const NcolsKey := "ncols"
  const NrowsKey := "nrows"

  /** `pat` occurs in `s` starting at position `i`. */
  predicate OccursAt(s: string, pat: string, i: nat) {
    i + |pat| <= |s| && s[i..i + |pat|] == pat
  }

  /** Python's `str.find` from position `from`: the first place where `pat` occurs, or -1. */
  function FindFrom(s: string, pat: string, from: nat): (r: int)
    ensures r == -1 || (from <= r && OccursAt(s, pat, r))
    ensures r == -1 ==> forall i :: from <= i ==> !OccursAt(s, pat, i)
    ensures r != -1 ==> forall i :: from <= i < r ==> !OccursAt(s, pat, i)
    decreases |s| + 1 - from
  {
    if from + |pat| > |s| then -1
    else if OccursAt(s, pat, from) then from
    else FindFrom(s, pat, from + 1)
  }

  /** `line.find(pat) != -1`: the line contains `pat` somewhere. */
  predicate Contains(line: string, pat: string) {
    FindFrom(line, pat, 0) != -1
  }

  lemma ContainsIff(line: string, pat: string)
    ensures Contains(line, pat) <==> exists i: nat :: OccursAt(line, pat, i)
  {
  }

  predicate IsDigit(c: char) {
    '0' <= c <= '9'
  }

  /** A match of the number pattern `-?\d+\.?\d*` starts at position `i`. */
  predicate StartsNumber(s: string, i: nat) {
    i < |s| && (IsDigit(s[i]) || (s[i] == '-' && i + 1 < |s| && IsDigit(s[i + 1])))
  }

  /** The leftmost position at or after `from` where a number starts. */
  function NumberStart(s: string, from: nat): (r: Option<nat>)
    ensures r.Some? ==> from <= r.value && StartsNumber(s, r.value)
    ensures r.Some? ==> forall i :: from <= i < r.value ==> !StartsNumber(s, i)
    ensures r.None? ==> forall i :: from <= i ==> !StartsNumber(s, i)
    decreases |s| - from
  {
    if from >= |s| then None
    else if StartsNumber(s, from) then Some(from)
    else NumberStart(s, from + 1)
  }

  /** The end of the run of digits that begins at position `i`. */
  function DigitRunEnd(s: string, i: nat): (e: nat)
    requires i <= |s|
    ensures i <= e <= |s|
    ensures forall k :: i <= k < e ==> IsDigit(s[k])
    ensures e == |s| || !IsDigit(s[e])
    decreases |s| - i
  {
    if i < |s| && IsDigit(s[i]) then DigitRunEnd(s, i + 1) else i
  }

  function DigitValue(c: char): (v: nat)
    requires IsDigit(c)
  {
    (c as int) - ('0' as int)
  }

  /** The value of a decimal digit string (as Python's `int` reads it). */
  function DigitsValue(ds: string): (v: nat)
    requires forall k :: 0 <= k < |ds| ==> IsDigit(ds[k])
  {
    if |ds| == 0 then 0 else 10 * DigitsValue(ds[..|ds| - 1]) + DigitValue(ds[|ds| - 1])
  }

  /** Why a size line could not be read. */
  datatype TokenError =
    | NoNumber    // the pattern finds nothing, so taking element 0 fails
    | NotInteger  // some match has a decimal point, which `int` rejects

  /**
   * One match of the number pattern: the value of its digits (negated
   * after a minus sign), whether a decimal point follows them, and the
   * position just past the match.
   */
  datatype Match = Match(value: int, point: bool, end: nat)

  /** The match of `-?\d+\.?\d*` that starts at position `i`; the pattern is greedy. */
  function MatchAt(line: string, i: nat): (m: Match)
    requires StartsNumber(line, i)
    ensures i < m.end <= |line|
  {
    var negative := line[i] == '-';
    var d := if negative then i + 1 else i;
    var e := DigitRunEnd(line, d);
    var v: int := DigitsValue(line[d..e]);
    var value := if negative then -v else v;
    if e < |line| && line[e] == '.' then Match(value, true, DigitRunEnd(line, e + 1))
    else Match(value, false, e)
  }

  /**
   * Some match found by scanning from position `from`, one match after
   * the other as `findall` does, has a decimal point.
   */
  predicate PointFrom(line: string, from: nat)
    decreases |line| - from
  {
    match NumberStart(line, from)
    case None => false
    case Some(i) => MatchAt(line, i).point || PointFrom(line, MatchAt(line, i).end)
  }

  /**
   * Every match on the line converted with `int`, then the first one
   * taken: a match with a decimal point anywhere on the line makes the
   * conversion fail, and a line without a match has no first element.
   */
  function FirstInt(line: string): (r: Result<int, TokenError>)
    ensures r == Err(NoNumber) <==> forall i :: 0 <= i ==> !StartsNumber(line, i)
    ensures r == Err(NotInteger) <==> PointFrom(line, 0)
    ensures r.Ok? ==> r.value == MatchAt(line, NumberStart(line, 0).value).value
  {
    match NumberStart(line, 0)
    case None => Err(NoNumber)
    case Some(i) => if PointFrom(line, 0) then Err(NotInteger) else Ok(MatchAt(line, i).value)
  }

  /** Some digit at or after `from` is followed directly by a decimal point. */
  predicate DigitBeforePoint(line: string, from: nat) {
    exists k :: from < k < |line| && IsDigit(line[k - 1]) && line[k] == '.'
  }

  /**
   * Scanning match after match from `from` meets a match with a decimal
   * point exactly when some digit at or after `from` is followed by a
   * point: that digit lies inside one of the matches, in its integer part
   * (so the point belongs to the match) or in its fraction.
   */
  lemma {:induction false} PointFromIff(line: string, from: nat)
    ensures PointFrom(line, from) <==> DigitBeforePoint(line, from)
    decreases |line| - from
  {
    match NumberStart(line, from)
    case None =>
      if DigitBeforePoint(line, from) {
        var k := PickPoint(line, from);
        assert StartsNumber(line, k - 1);
      }
    case Some(i) =>
      var m := MatchAt(line, i);
      PointFromIff(line, m.end);
      if m.point {
        var k := PointOfMatch(line, i);
        assert from < k < |line| && IsDigit(line[k - 1]) && line[k] == '.';
      }
      if DigitBeforePoint(line, from) && !m.point {
        var k := PickPoint(line, from);
        assert StartsNumber(line, k - 1);
        if k <= m.end {
          NoPointInsideMatch(line, i, k);
        }
        assert DigitBeforePoint(line, m.end);
      }
  }

  /** A digit followed by a decimal point, at or after `from`. */
  lemma PickPoint(line: string, from: nat) returns (k: nat)
    requires DigitBeforePoint(line, from)
    ensures from < k < |line| && IsDigit(line[k - 1]) && line[k] == '.'
  {
    k :| from < k < |line| && IsDigit(line[k - 1]) && line[k] == '.';
  }

  /** A match with a decimal point has a digit right before that point. */
  lemma PointOfMatch(line: string, i: nat) returns (k: nat)
    requires StartsNumber(line, i) && MatchAt(line, i).point
    ensures i < k < |line| && IsDigit(line[k - 1]) && line[k] == '.'
  {
    var d := if line[i] == '-' then i + 1 else i;
    k := DigitRunEnd(line, d);
  }

  /** Inside a match without a decimal point, no digit is followed by a point. */
  lemma NoPointInsideMatch(line: string, i: nat, k: nat)
    requires StartsNumber(line, i) && !MatchAt(line, i).point
    requires i < k <= MatchAt(line, i).end && k < |line|
    ensures line[k] != '.'
  {
    var d := if line[i] == '-' then i + 1 else i;
    var e := DigitRunEnd(line, d);
    assert MatchAt(line, i).end == e;
    if k < e {
      assert IsDigit(line[k]);
    }
  }

  /** The decimal digit for `d`. */
  function Digit(d: nat): (c: char)
    requires d < 10
  {
    ('0' as int + d) as char
  }

  /** The decimal representation of `n`, without leading zeros. */
  function ShowNat(n: nat): (s: string)
    ensures |s| > 0
    ensures forall k :: 0 <= k < |s| ==> IsDigit(s[k])
  {
    if n < 10 then [Digit(n)] else ShowNat(n / 10) + [Digit(n % 10)]
  }

  /** The decimal representation of `n`, with a leading minus sign when negative. */
  function ShowInt(n: int): (s: string) {
    if n < 0 then "-" + ShowNat(-n) else ShowNat(n)
  }

  /** Reading back the decimal representation of `n` gives `n`. */
  lemma {:induction false} DigitsValueShowNat(n: nat)
    ensures DigitsValue(ShowNat(n)) == n
  {
    if n >= 10 {
      DigitsValueShowNat(n / 10);
      var s := ShowNat(n);
      assert s[..|s| - 1] == ShowNat(n / 10);
    }
  }

  /** The number starts at `p` when it starts there and nowhere before. */
  lemma NumberStartAt(line: string, p: nat)
    requires StartsNumber(line, p)
    requires forall i :: 0 <= i < p ==> !StartsNumber(line, i)
    ensures NumberStart(line, 0) == Some(p)
  {
  }

  /** A run of `len` digits at `d`, not followed by another digit, ends at `d + len`. */
  lemma DigitRunEndAt(line: string, d: nat, len: nat)
    requires d + len <= |line|
    requires forall k :: d <= k < d + len ==> IsDigit(line[k])
    requires d + len == |line| || !IsDigit(line[d + len])
    ensures DigitRunEnd(line, d) == d + len
  {
  }

  /**
   * The match at `p` whose digits `digits` begin at `d` (after the minus
   * sign when `negative`) and are followed by neither a digit nor a
   * decimal point.
   */
  lemma MatchAtDigits(line: string, p: nat, negative: bool, d: nat, digits: string)
    requires p < |line| && d == (if negative then p + 1 else p)
    requires forall k :: 0 <= k < |digits| ==> IsDigit(digits[k])
    requires 0 < |digits| && d + |digits| <= |line|
    requires forall k :: 0 <= k < |digits| ==> line[d + k] == digits[k]
    requires negative <==> line[p] == '-'
    requires d + |digits| == |line| || (!IsDigit(line[d + |digits|]) && line[d + |digits|] != '.')
    ensures StartsNumber(line, p)
    ensures MatchAt(line, p) == Match(if negative then -(DigitsValue(digits) as int) else DigitsValue(digits),
      false, d + |digits|)
  {
    forall k | d <= k < d + |digits|
      ensures IsDigit(line[k])
    {
      assert line[d + (k - d)] == digits[k - d];
    }
    assert line[d] == digits[0];
    DigitRunEndAt(line, d, |digits|);
    assert line[d..d + |digits|] == digits;
  }

  /** Where no digit follows, no further match is found. */
  lemma NoPointFrom(line: string, from: nat)
    requires forall k :: from <= k < |line| ==> !IsDigit(line[k])
    ensures NumberStart(line, from).None?
    ensures !PointFrom(line, from)
  {
    assert forall i :: from <= i ==> !StartsNumber(line, i);
  }

  /**
   * The first number on the line starts at `p`, its digits `digits` begin
   * at `d`, neither a digit nor a decimal point follows them, and no digit
   * comes later on the line.
   */
  lemma FirstIntAt(line: string, p: nat, negative: bool, d: nat, digits: string)
    requires p < |line| && d == (if negative then p + 1 else p)
    requires forall i :: 0 <= i < p ==> !StartsNumber(line, i)
    requires forall k :: 0 <= k < |digits| ==> IsDigit(digits[k])
    requires 0 < |digits| && d + |digits| <= |line|
    requires forall k :: 0 <= k < |digits| ==> line[d + k] == digits[k]
    requires negative <==> line[p] == '-'
    requires d + |digits| == |line| || line[d + |digits|] != '.'
    requires forall k :: d + |digits| <= k < |line| ==> !IsDigit(line[k])
    ensures FirstInt(line) == Ok(if negative then -(DigitsValue(digits) as int) else DigitsValue(digits))
  {
    var e := d + |digits|;
    assert e == |line| || !IsDigit(line[e]);
    MatchAtDigits(line, p, negative, d, digits);
    var m := MatchAt(line, p);
    NumberStartAt(line, p);
    NoPointFrom(line, e);
    assert !m.point && m.end == e;
    assert !PointFrom(line, 0) by {
      assert NumberStart(line, 0) == Some(p);
      assert !PointFrom(line, m.end);
    }
  }

  /**
   * Every match on a size line is converted, not just the first: a
   * decimal later on the line makes the line unreadable even though its
   * first number is an integer.
   */
  lemma LaterDecimalRejected()
    ensures FirstInt("ncols 4") == Ok(4)
    ensures FirstInt("ncols 4 2.5") == Err(NotInteger)
  {
    var good := "ncols 4";
    FirstIntAt(good, 6, false, 6, "4");
    var bad := "ncols 4 2.5";
    assert StartsNumber(bad, 6) && StartsNumber(bad, 8);
    assert NumberStart(bad, 0) == Some(6);
    assert MatchAt(bad, 6).end == 7 && !MatchAt(bad, 6).point;
    assert NumberStart(bad, 7) == Some(8);
    assert MatchAt(bad, 8).point;
  }

  /** Where the parts of `prefix + mid + suffix` land. */
  lemma ConcatPositions(prefix: string, mid: string, suffix: string)
    ensures var line := prefix + mid + suffix;
      && |line| == |prefix| + |mid| + |suffix|
      && (forall i :: 0 <= i < |prefix| ==> line[i] == prefix[i])
      && (forall k :: 0 <= k < |mid| ==> line[|prefix| + k] == mid[k])
      && (|suffix| > 0 ==> line[|prefix| + |mid|] == suffix[0])
  {
  }

  /** A suffix without digits leaves no digit after the middle part. */
  lemma SuffixHasNoDigit(prefix: string, mid: string, suffix: string)
    requires forall k :: 0 <= k < |suffix| ==> !IsDigit(suffix[k])
    ensures var line := prefix + mid + suffix;
      forall k :: |prefix| + |mid| <= k < |line| ==> !IsDigit(line[k])
  {
    var line := prefix + mid + suffix;
    forall k | |prefix| + |mid| <= k < |line|
      ensures !IsDigit(line[k])
    {
      assert line[k] == suffix[k - |prefix| - |mid|];
    }
  }

  /** Where the digits of `ShowInt(n)` sit. */
  lemma ShowIntShape(n: int)
    ensures var m: nat := if n < 0 then -n else n;
      var s := ShowInt(n);
      var sign := if n < 0 then 1 else 0;
      && |s| == sign + |ShowNat(m)|
      && (n < 0 <==> s[0] == '-')
      && (forall k :: 0 <= k < |ShowNat(m)| ==> s[sign + k] == ShowNat(m)[k])
  {
  }

  /**
   * An integer written after text that holds no digit and no minus sign,
   * and followed by text that holds no digit and does not start with a
   * decimal point, is read back as itself.
   */
  lemma FirstIntShowInt(prefix: string, n: int, suffix: string)
    requires forall k :: 0 <= k < |prefix| ==> !IsDigit(prefix[k]) && prefix[k] != '-'
    requires forall k :: 0 <= k < |suffix| ==> !IsDigit(suffix[k])
    requires |suffix| == 0 || suffix[0] != '.'
    ensures FirstInt(prefix + ShowInt(n) + suffix) == Ok(n)
  {
    var mid := ShowInt(n);
    var line := prefix + mid + suffix;
    var m: nat := if n < 0 then -n else n;
    var digits := ShowNat(m);
    var p := |prefix|;
    var d := if n < 0 then p + 1 else p;
    assert |line| == p + |mid| + |suffix| && d + |digits| == p + |mid|
      && (forall k :: 0 <= k < |digits| ==> line[d + k] == digits[k])
      && (n < 0 <==> line[p] == '-') by {
      ConcatPositions(prefix, mid, suffix);
      ShowIntShape(n);
      forall k | 0 <= k < |digits| ensures line[d + k] == digits[k] {
        assert line[p + (d - p + k)] == mid[d - p + k];
      }
    }
    assert |suffix| > 0 ==> line[p + |mid|] == suffix[0] by {
      ConcatPositions(prefix, mid, suffix);
    }
    SuffixHasNoDigit(prefix, mid, suffix);
    assert forall i :: 0 <= i < p ==> !StartsNumber(line, i) by {
      ConcatPositions(prefix, mid, suffix);
      forall i | 0 <= i < p
        ensures !StartsNumber(line, i)
      {
        assert line[i] == prefix[i];
      }
    }
    assert StartsNumber(line, p) by {
      assert line[d] == digits[0];
    }
    DigitsValueShowNat(m);
    FirstIntAt(line, p, n < 0, d, digits);
  }

  /** The dimensions found so far; `None` while no line has set them. */
  datatype HeaderState = HeaderState(ncols: Option<int>, nrows: Option<int>)

  /** A size line whose number could not be read; the line is counted from 0. */
  datatype HeaderError =
    | BadSizeLine(line: nat, cause: TokenError)
    | MissingNrows
    | MissingNcols

  /**
   * What the loop body makes of one line: an `ncols` line and, failing
   * that (the `elif`), an `nrows` line carry the result of reading their
   * first number; any other line is passed over.
   */
  datatype LineKind =
    | NcolsLine(token: Result<int, TokenError>)
    | NrowsLine(token: Result<int, TokenError>)
    | OtherLine

  /** The branch the loop body takes on `line`. */
  function Classify(line: string): (k: LineKind)
    ensures k.NcolsLine? <==> Contains(line, NcolsKey)
    ensures k.NrowsLine? <==> !Contains(line, NcolsKey) && Contains(line, NrowsKey)
    ensures !k.OtherLine? ==> k.token == FirstInt(line)
  {
    if Contains(line, NcolsKey) then NcolsLine(FirstInt(line))
    else if Contains(line, NrowsKey) then NrowsLine(FirstInt(line))
    else OtherLine
  }

  /** Every size line among the first `n` lines holds a readable integer. */
  predicate AllReadable(kinds: seq<LineKind>, n: nat)
    requires n <= |kinds|
  {
    forall j :: 0 <= j < n && !kinds[j].OtherLine? ==> kinds[j].token.Ok?
  }

  /** One pass of the loop body, on line number `n` of kind `kind`. */
  function Step(st: HeaderState, n: nat, kind: LineKind): (r: Result<HeaderState, HeaderError>)
    ensures r.Ok? <==> kind.OtherLine? || kind.token.Ok?
    ensures r.Err? ==> r.error == BadSizeLine(n, kind.token.error)
    ensures r.Ok? ==> forall dim ::
      Get(r.value, dim) == (if Sets(kind, dim) then Some(kind.token.value) else Get(st, dim))
  {
    match kind
    case NcolsLine(Ok(v)) => Ok(st.(ncols := Some(v)))
    case NrowsLine(Ok(v)) => Ok(st.(nrows := Some(v)))
    case NcolsLine(Err(e)) => Err(BadSizeLine(n, e))
    case NrowsLine(Err(e)) => Err(BadSizeLine(n, e))
    case OtherLine => Ok(st)
  }

  /**
   * The header loop over the lines in order, starting with both sizes
   * unset. The first size line whose number cannot be read stops the scan.
   */
  function Scan(kinds: seq<LineKind>): (r: Result<HeaderState, HeaderError>)
    ensures r.Ok? <==> AllReadable(kinds, |kinds|)
    ensures r.Err? ==> r.error.BadSizeLine? && r.error.line < |kinds|
    decreases |kinds|
  {
    if |kinds| == 0 then Ok(HeaderState(None, None))
    else
      var n := |kinds| - 1;
      assert forall j :: 0 <= j < n ==> kinds[..n][j] == kinds[j];
      match Scan(kinds[..n])
      case Err(e) => Err(e)
      case Ok(st) => Step(st, n, kinds[n])
  }

  /** The kinds of all lines of the file, in order. */
  function ClassifyAll(lines: seq<string>): (kinds: seq<LineKind>)
    ensures |kinds| == |lines|
    ensures forall j :: 0 <= j < |lines| ==> kinds[j] == Classify(lines[j])
  {
    seq(|lines|, j requires 0 <= j < |lines| => Classify(lines[j]))
  }

  /** The header loop over all lines of the file. */
  function ScanLines(lines: seq<string>): (r: Result<HeaderState, HeaderError>) {
    Scan(ClassifyAll(lines))
  }

  /**
   * A failed scan names the first size line that cannot be read, with the
   * reason the reading gives.
   */
  lemma {:induction false} ScanFailsAtFirstBadLine(kinds: seq<LineKind>)
    requires Scan(kinds).Err?
    ensures var j := Scan(kinds).error.line;
      && j < |kinds|
      && !kinds[j].OtherLine?
      && kinds[j].token == Err(Scan(kinds).error.cause)
      && AllReadable(kinds, j)
    decreases |kinds|
  {
    var n := |kinds| - 1;
    var front := kinds[..n];
    assert forall j :: 0 <= j < n ==> front[j] == kinds[j];
    if Scan(front).Err? {
      ScanFailsAtFirstBadLine(front);
    }
  }

  /** The two sizes the header declares. */
  datatype Dim = Cols | Rows

  /** The line sets dimension `dim`. */
  predicate Sets(kind: LineKind, dim: Dim) {
    match dim
    case Cols => kind.NcolsLine?
    case Rows => kind.NrowsLine?
  }

  /** The value of dimension `dim` found so far. */
  function Get(st: HeaderState, dim: Dim): (v: Option<int>) {
    match dim
    case Cols => st.ncols
    case Rows => st.nrows
  }

  /** A successful scan is the loop body applied to the scan of all but the last line. */
  lemma ScanLast(kinds: seq<LineKind>)
    requires |kinds| > 0 && Scan(kinds).Ok?
    ensures Scan(kinds[..|kinds| - 1]).Ok?
    ensures Scan(kinds) == Step(Scan(kinds[..|kinds| - 1]).value, |kinds| - 1, kinds[|kinds| - 1])
  {
  }

  /** A dimension stays unset exactly when no line sets it. */
  lemma {:induction false} ScanUnsetIffNoLine(kinds: seq<LineKind>, dim: Dim)
    requires Scan(kinds).Ok?
    ensures Get(Scan(kinds).value, dim).None? <==> forall j :: 0 <= j < |kinds| ==> !Sets(kinds[j], dim)
    decreases |kinds|
  {
    if |kinds| > 0 {
      var n := |kinds| - 1;
      var front := kinds[..n];
      ScanLast(kinds);
      ScanUnsetIffNoLine(front, dim);
      assert forall j :: 0 <= j < n ==> front[j] == kinds[j];
    }
  }

  /**
   * A dimension that is set holds the number on the LAST line that sets
   * it: Ncols from the last `ncols` line, Nrows from the last `nrows` line
   * that does not also mention `ncols`.
   */
  lemma {:induction false} ScanTakesLastLine(kinds: seq<LineKind>, dim: Dim)
    requires Scan(kinds).Ok? && Get(Scan(kinds).value, dim).Some?
    ensures exists j :: (0 <= j < |kinds| && Sets(kinds[j], dim)
      && kinds[j].token == Ok(Get(Scan(kinds).value, dim).value)
      && forall k :: j < k < |kinds| ==> !Sets(kinds[k], dim))
    decreases |kinds|
  {
    var n := |kinds| - 1;
    var front := kinds[..n];
    ScanLast(kinds);
    var v := Get(Scan(kinds).value, dim).value;
    if Sets(kinds[n], dim) {
      assert kinds[n].token == Ok(v);
    } else {
      assert Get(Scan(front).value, dim) == Some(v);
      ScanTakesLastLine(front, dim);
      var j :| 0 <= j < n && Sets(front[j], dim) && front[j].token == Ok(v)
        && forall k :: j < k < n ==> !Sets(front[k], dim);
      assert kinds[j] == front[j];
      assert forall k :: j < k < n ==> kinds[k] == front[k];
    }
  }

  /** A line that mentions both `ncols` and `nrows` sets Ncols only. */
  lemma BothKeysCountAsNcols(line: string)
    requires Contains(line, NcolsKey) && Contains(line, NrowsKey)
    ensures Classify(line) == NcolsLine(FirstInt(line))
    ensures forall st: HeaderState, n: nat :: FirstInt(line).Ok? ==>
      Step(st, n, Classify(line)) == Ok(st.(ncols := Some(FirstInt(line).value)))
  {
  }

  /** The grid size read from the header. */
  datatype Dims = Dims(nrows: int, ncols: int)

  /**
   * The dimensions after the scan. Using an unset variable fails; the grid
   * is created with `[Nrows, Ncols]`, so a missing Nrows is reported before
   * a missing Ncols.
   */
  function ReadDims(lines: seq<string>): (r: Result<Dims, HeaderError>)
    ensures ScanLines(lines).Err? ==> r == Err(ScanLines(lines).error)
    ensures r.Ok? <==> ScanLines(lines).Ok? && ScanLines(lines).value.nrows.Some? && ScanLines(lines).value.ncols.Some?
    ensures r.Ok? ==> ScanLines(lines).value == HeaderState(Some(r.value.ncols), Some(r.value.nrows))
    ensures r == Err(MissingNrows) <==> ScanLines(lines).Ok? && ScanLines(lines).value.nrows.None?
    ensures r == Err(MissingNcols) <==>
      ScanLines(lines).Ok? && ScanLines(lines).value.nrows.Some? && ScanLines(lines).value.ncols.None?
  {
    match ScanLines(lines)
    case Err(e) => Err(e)
    case Ok(st) =>
      if st.nrows.None? then Err(MissingNrows)
      else if st.ncols.None? then Err(MissingNcols)
      else Ok(Dims(st.nrows.value, st.ncols.value))
  }
}

=== FILE: ksat.dfy ===
/**
 * Unit conversion of the saturated hydraulic conductivity from cm/day to
 * m/day, leaving the no-data value untouched.
 */
module Ksat {

  /** The no-data value of the parameter grids. */
  const NoData: real := -999.0

  /** Conversion factor from cm/day to m/day. */
  const CmToM: real := 0.01

  /** One value: no-data passes through, anything else is scaled by 0.01. */
  function Convert(x: real): (y: real)
    ensures x == NoData ==> y == NoData
    ensures x != NoData ==> y == x / 100.0
  {
    if x == NoData then x else x * CmToM
  }

  /**
   * The `apply` over the flattened conductivity cells: same length, no-data
   * cells unchanged, every other cell scaled by 0.01.
   */
  function ConvertAll(xs: seq<real>): (ys: seq<real>)
    ensures |ys| == |xs|
    ensures forall i :: 0 <= i < |xs| && xs[i] == NoData ==> ys[i] == NoData
    ensures forall i :: 0 <= i < |xs| && xs[i] != NoData ==> ys[i] == xs[i] * CmToM
    decreases |xs|
  {
    if |xs| == 0 then []
    else ConvertAll(xs[..|xs| - 1]) + [Convert(xs[|xs| - 1])]
  }

  /** Back from m/day to cm/day, leaving no-data untouched. */
  function Restore(y: real): (x: real) {
    if y == NoData then y else y * 100.0
  }

  /** The one conductivity that the conversion turns into the no-data value. */
  const Collider: real := -99900.0

  /**
   * Restoring a converted value gives back the original, for every value
   * except the one that converts onto the no-data value.
   */
  lemma RestoreConvert(x: real)
    requires x != Collider
    ensures Restore(Convert(x)) == x
  {
    if x != NoData {
      assert Convert(x) != NoData;
    }
  }

  /**
   * The conversion confuses exactly one pair of inputs: -99900 cm/day
   * becomes -999, indistinguishable from no-data afterwards.
   */
  lemma ConvertCollision(x: real, x': real)
    ensures Convert(Collider) == NoData && Collider != NoData
    ensures x != x' && Convert(x) == Convert(x') ==> (x == NoData && x' == Collider) || (x == Collider && x' == NoData)
  {
  }

  /** 100 cm/day becomes 1 m/day; no-data stays -999. */
  lemma ConvertExamples()
    ensures ConvertAll([100.0, NoData]) == [1.0, NoData]
  {
    assert [100.0, NoData][..1] == [100.0];
    assert [100.0][..0] == [];
  }
}

=== FILE: pipeline.dfy ===
/**
 * The whole conversion, from the header of the first parameter grid and
 * the five parameter grids to the category map and the two library tables.
 */
module Pipeline {
  import opened Results
  import Header
  import Grid
  import Ksat
  import opened Dedup
  import opened Tables

  /**
   * What the conversion reads: the lines of the first grid file,
   * and the five van Genuchten parameter grids (saturated and residual
   * water content, saturated conductivity in cm/d, alpha and n) as their
   * reader returns them.
   */
  datatype Inputs = Inputs(
    header: seq<string>,
    thetaS: seq<seq<real>>,
    thetaR: seq<seq<real>>,
    ksat: seq<seq<real>>,
    alpha: seq<seq<real>>,
    n: seq<seq<real>>)

  /** What the conversion writes: the category map and the two tables. */
  datatype Outputs = Outputs(
    superCatMap: seq<seq<nat>>,
    properties: seq<SoilProperty<real>>,
    details: seq<SoilDetail>)

  datatype PipelineError =
    | HeaderFailed(headerError: Header.HeaderError)
    | NegativeDimension(nrows: int, ncols: int)   // the zero grid of that shape cannot be made
    | ReshapeFailed(reshapeError: Grid.ReshapeError)
    | GridSizeMismatch(column: Column, cells: nat)  // a grid the reader could not have returned
    | TableFailed(tableError: TableError)

  /** The flattened parameter grids, as the tables use them. */
  function ParametersOf(inp: Inputs): (p: Parameters<real>)
    ensures p.thetaS == Grid.Flatten(inp.thetaS) && p.ksat == Grid.Flatten(inp.ksat)
  {
    Parameters(Grid.Flatten(inp.thetaS), Grid.Flatten(inp.thetaR), Grid.Flatten(inp.ksat),
      Grid.Flatten(inp.alpha), Grid.Flatten(inp.n))
  }

  /**
   * The converted conductivities, in m/d. The conversion is computed but
   * nothing downstream reads it: the table's conductivity column is built
   * from the grid as read.
   */
  function ConvertedKsat(inp: Inputs): (ks: seq<real>)
    ensures var cells := Grid.Flatten(inp.ksat);
      && |ks| == |cells|
      && (forall j :: 0 <= j < |cells| && cells[j] == Ksat.NoData ==> ks[j] == Ksat.NoData)
      && (forall j :: 0 <= j < |cells| && cells[j] != Ksat.NoData ==> ks[j] == cells[j] / 100.0)
  {
    Ksat.ConvertAll(Grid.Flatten(inp.ksat))
  }

  /**
   * The first of the other four parameters, in reading order, whose grid
   * does not have `size` cells. The reader is called with the header's
   * size for every grid, so the script never meets such a grid; the model
   * refuses it rather than guess what the table code would make of it.
   */
  function MisSized(p: Parameters<real>, size: nat): (r: Option<Column>)
    ensures r.None? <==> forall c :: |CellsOf(p, c)| == size || c == ThetaS
    ensures r.Some? ==> r.value != ThetaS && |CellsOf(p, r.value)| != size
    ensures r.Some? && r.value != ThetaR ==> |CellsOf(p, ThetaR)| == size
    ensures r.Some? && r.value !in {ThetaR, Column.Ksat} ==> |CellsOf(p, Column.Ksat)| == size
    ensures r == Some(N) ==> |CellsOf(p, Alpha)| == size
  {
    if |CellsOf(p, ThetaR)| != size then Some(ThetaR)
    else if |CellsOf(p, Column.Ksat)| != size then Some(Column.Ksat)
    else if |CellsOf(p, Alpha)| != size then Some(Alpha)
    else if |CellsOf(p, N)| != size then Some(N)
    else
      assert forall c :: |CellsOf(p, c)| == size || c == ThetaS by {
        forall c ensures |CellsOf(p, c)| == size || c == ThetaS {
          SizesByColumn(p, size, c);
        }
      }
      None
  }

  /** The four size tests of `MisSized`, column by column. */
  lemma SizesByColumn(p: Parameters<real>, size: nat, c: Column)
    requires |p.thetaR| == size && |p.ksat| == size && |p.alpha| == size && |p.n| == size
    ensures |CellsOf(p, c)| == size || c == ThetaS
  {
  }

  /** Once the size is read, what the rest of the conversion needs to succeed. */
  predicate Accepts(inp: Inputs, dims: Header.Dims) {
    && dims.nrows >= 0 && dims.ncols >= 0
    && (forall c :: |CellsOf(ParametersOf(inp), c)| == dims.nrows * dims.ncols)
    && AllFit(ParametersOf(inp))
  }

  /**
   * The conversion once a non-negative size is read: number the cells,
   * lay the numbers out as the map, check the other grids' sizes, and
   * build the tables.
   */
  function RunSized(inp: Inputs, dims: Header.Dims): (r: Result<Outputs, PipelineError>)
    requires dims.nrows >= 0 && dims.ncols >= 0
    ensures r.Ok? <==> Accepts(inp, dims)
    ensures r.Ok? ==>
      && Grid.IsRect(r.value.superCatMap, dims.nrows, dims.ncols)
      && Grid.Flatten(r.value.superCatMap) == SuperCatsOf(Grid.Flatten(inp.thetaS))
    ensures r.Ok? ==> var k := |Unique(Grid.Flatten(inp.thetaS))|;
      && |r.value.properties| == k && |r.value.details| == k
      && (forall i :: 0 <= i < k ==> DescribesCategory(ParametersOf(inp), i, r.value.properties[i]))
      && (forall i :: 0 <= i < k ==>
            && r.value.details[i].open == DetailOpen && r.value.details[i].close == DetailClose
            && r.value.details[i].superCats == i && r.value.details[i].soilType == i
            && r.value.details[i].soilLayer == SoilLayer && r.value.details[i].depth == Depth)
    ensures var size := dims.nrows * dims.ncols;
      var p := ParametersOf(inp);
      && !(r.Err? && r.error.HeaderFailed?) && !(r.Err? && r.error.NegativeDimension?)
      && (r.Err? && r.error.ReshapeFailed? <==> |Grid.Flatten(inp.thetaS)| != size)
      && (r.Err? && r.error.GridSizeMismatch? <==> |Grid.Flatten(inp.thetaS)| == size && MisSized(p, size).Some?)
      && (r.Err? && r.error.GridSizeMismatch? ==> r.error.column == MisSized(p, size).value)
      && (r.Err? && r.error.TableFailed? <==>
            |Grid.Flatten(inp.thetaS)| == size && MisSized(p, size).None? && BuildProperties(p).Err?)
      && (r.Err? && r.error.TableFailed? ==> r.error.tableError == BuildProperties(p).error)
  {
    var cells := Grid.Flatten(inp.thetaS);
    var ids := SuperCatsOf(cells);
    match Grid.Reshape(ids, dims.nrows, dims.ncols)
    case Err(e) =>
      assert |CellsOf(ParametersOf(inp), ThetaS)| != dims.nrows * dims.ncols;
      Err(ReshapeFailed(e))
    case Ok(superCatMap) =>
      Grid.FlattenReshape(ids, dims.nrows, dims.ncols);
      var p := ParametersOf(inp);
      match MisSized(p, dims.nrows * dims.ncols)
      case Some(c) => Err(GridSizeMismatch(c, |CellsOf(p, c)|))
      case None =>
        match BuildProperties(p)
        case Err(e) => Err(TableFailed(e))
        case Ok(properties) =>
          Ok(Outputs(superCatMap, properties, BuildDetails(Categories(p))))
  }

  /**
   * The conversion: read the size, number the distinct saturated water
   * contents in first-seen order, lay the numbers out as a map of the
   * grid's size, then build one property row and one detail row per
   * number.
   */
  function Run(inp: Inputs): (r: Result<Outputs, PipelineError>)
    ensures r.Ok? <==> Header.ReadDims(inp.header).Ok? && Accepts(inp, Header.ReadDims(inp.header).value)
    // The stages fail in the script's order: header, grid shape, reshape, reader size, table.
    ensures Header.ReadDims(inp.header).Err? ==> r == Err(HeaderFailed(Header.ReadDims(inp.header).error))
    ensures Header.ReadDims(inp.header).Ok? ==> var dims := Header.ReadDims(inp.header).value;
      var size := dims.nrows * dims.ncols;
      var p := ParametersOf(inp);
      && (r.Err? && r.error.NegativeDimension? <==> dims.nrows < 0 || dims.ncols < 0)
      && (r.Err? && r.error.NegativeDimension? ==> r.error == NegativeDimension(dims.nrows, dims.ncols))
      && (r.Err? && r.error.ReshapeFailed? <==>
            dims.nrows >= 0 && dims.ncols >= 0 && |Grid.Flatten(inp.thetaS)| != size)
      && (r.Err? && r.error.GridSizeMismatch? <==>
            dims.nrows >= 0 && dims.ncols >= 0 && |Grid.Flatten(inp.thetaS)| == size && MisSized(p, size).Some?)
      && (r.Err? && r.error.GridSizeMismatch? ==> r.error.column == MisSized(p, size).value)
      && (r.Err? && r.error.TableFailed? <==>
            dims.nrows >= 0 && dims.ncols >= 0 && |Grid.Flatten(inp.thetaS)| == size && MisSized(p, size).None?
            && BuildProperties(p).Err?)
      && (r.Err? && r.error.TableFailed? ==> r.error.tableError == BuildProperties(p).error)
    ensures r.Ok? ==> var dims := Header.ReadDims(inp.header).value;
      && dims.nrows >= 0 && dims.ncols >= 0
      && Grid.IsRect(r.value.superCatMap, dims.nrows, dims.ncols)
      && Grid.Flatten(r.value.superCatMap) == SuperCatsOf(Grid.Flatten(inp.thetaS))
    ensures r.Ok? ==> var k := |Unique(Grid.Flatten(inp.thetaS))|;
      && |r.value.properties| == k && |r.value.details| == k
      && (forall i :: 0 <= i < k ==> DescribesCategory(ParametersOf(inp), i, r.value.properties[i]))
      && (forall i :: 0 <= i < k ==>
            && r.value.details[i].open == DetailOpen && r.value.details[i].close == DetailClose
            && r.value.details[i].superCats == i && r.value.details[i].soilType == i
            && r.value.details[i].soilLayer == SoilLayer && r.value.details[i].depth == Depth)
  {
    match Header.ReadDims(inp.header)
    case Err(e) => Err(HeaderFailed(e))
    case Ok(dims) =>
      if dims.nrows < 0 || dims.ncols < 0 then Err(NegativeDimension(dims.nrows, dims.ncols))
      else RunSized(inp, dims)
  }

  /** A successful run's outputs, stage by stage. */
  lemma RunStages(inp: Inputs)
    requires Run(inp).Ok?
    ensures var dims := Header.ReadDims(inp.header).value;
      var p := ParametersOf(inp);
      var ids := SuperCatsOf(Grid.Flatten(inp.thetaS));
      && Header.ReadDims(inp.header).Ok? && dims.nrows >= 0 && dims.ncols >= 0
      && |ids| == dims.nrows * dims.ncols
      && Grid.Reshape(ids, dims.nrows, dims.ncols).Ok?
      && BuildProperties(p).Ok?
      && Run(inp).value == Outputs(Grid.Reshape(ids, dims.nrows, dims.ncols).value,
           BuildProperties(p).value, BuildDetails(Categories(p)))
  {
  }

  /**
   * Cell `(r, c)` of a rectangular first grid sits at position
   * `r * ncols + c` of the flattened grid, and so does its category ID in
   * the reshaped map.
   */
  lemma MapCellAt<T>(g: seq<seq<T>>, nrows: nat, ncols: nat, r: nat, c: nat)
    requires Grid.IsRect(g, nrows, ncols) && r < nrows && c < ncols
    ensures var ids := SuperCatsOf(Grid.Flatten(g));
      && |ids| == nrows * ncols
      && 0 <= r * ncols + c < |ids|
      && Grid.Flatten(g)[r * ncols + c] == g[r][c]
      && Grid.Reshape(ids, nrows, ncols).Ok?
      && Grid.Reshape(ids, nrows, ncols).value[r][c] == ids[r * ncols + c]
  {
    Grid.FlattenLength(g, nrows, ncols);
    Grid.FlattenCell(g, nrows, ncols, r, c);
    Grid.ReshapeCell(SuperCatsOf(Grid.Flatten(g)), nrows, ncols, r, c);
  }

  /**
   * The map cell at row `r`, column `c` points at the property row whose
   * saturated water content is the one the grid holds in that cell.
   */
  lemma MapCellRow(inp: Inputs, r: nat, c: nat)
    requires Run(inp).Ok?
    requires var dims := Header.ReadDims(inp.header).value;
      Grid.IsRect(inp.thetaS, dims.nrows, dims.ncols) && r < dims.nrows && c < dims.ncols
    ensures var out := Run(inp).value;
      && r < |out.superCatMap| && c < |out.superCatMap[r]|
      && out.superCatMap[r][c] < |out.properties|
      && out.properties[out.superCatMap[r][c]].thetaS == inp.thetaS[r][c]
  {
    RunStages(inp);
    var dims := Header.ReadDims(inp.header).value;
    MapCellAt(inp.thetaS, dims.nrows, dims.ncols, r, c);
    CellRowAgrees(ParametersOf(inp), r * dims.ncols + c);
  }

  /** In the map of a rectangular grid, two cells share an ID exactly when they share a value. */
  lemma MapCellsAgree<T>(g: seq<seq<T>>, nrows: nat, ncols: nat, r1: nat, c1: nat, r2: nat, c2: nat)
    requires Grid.IsRect(g, nrows, ncols)
    requires r1 < nrows && c1 < ncols && r2 < nrows && c2 < ncols
    ensures var res := Grid.Reshape(SuperCatsOf(Grid.Flatten(g)), nrows, ncols);
      && res.Ok?
      && (res.value[r1][c1] == res.value[r2][c2] <==> g[r1][c1] == g[r2][c2])
  {
    MapCellAt(g, nrows, ncols, r1, c1);
    MapCellAt(g, nrows, ncols, r2, c2);
    SuperCatsSameIffSameValue(Grid.Flatten(g), r1 * ncols + c1, r2 * ncols + c2);
  }

  /** Two map cells hold the same category exactly when the grid holds the same value in both. */
  lemma MapCellsSameIffSameValue(inp: Inputs, r1: nat, c1: nat, r2: nat, c2: nat)
    requires Run(inp).Ok?
    requires var dims := Header.ReadDims(inp.header).value;
      && Grid.IsRect(inp.thetaS, dims.nrows, dims.ncols)
      && r1 < dims.nrows && c1 < dims.ncols && r2 < dims.nrows && c2 < dims.ncols
    ensures var m := Run(inp).value.superCatMap;
      r1 < |m| && c1 < |m[r1]| && r2 < |m| && c2 < |m[r2]|
      && (m[r1][c1] == m[r2][c2] <==> inp.thetaS[r1][c1] == inp.thetaS[r2][c2])
  {
    RunStages(inp);
    var dims := Header.ReadDims(inp.header).value;
    MapCellsAgree(inp.thetaS, dims.nrows, dims.ncols, r1, c1, r2, c2);
  }

  /** The map of a successful run is the reshaped ID list. */
  lemma RunMap(inp: Inputs, m: seq<seq<nat>>)
    requires Run(inp).Ok?
    requires var dims := Header.ReadDims(inp.header).value;
      Grid.Reshape(SuperCatsOf(Grid.Flatten(inp.thetaS)), dims.nrows, dims.ncols) == Ok(m)
    ensures Run(inp).value.superCatMap == m
  {
    RunStages(inp);
  }

  /** Row `i` of a successful run's property table holds the `i`-th distinct saturated water content. */
  lemma RunThetaS(inp: Inputs, i: nat)
    requires Run(inp).Ok? && i < |Unique(Grid.Flatten(inp.thetaS))|
    ensures |Run(inp).value.properties| == |Unique(Grid.Flatten(inp.thetaS))|
    ensures Run(inp).value.properties[i].thetaS == Unique(Grid.Flatten(inp.thetaS))[i]
  {
  }

  /** The 2 x 2 grid flattens row by row. */
  lemma TwoByTwoFlatten()
    ensures Grid.Flatten([[0.4, 0.4], [0.5, 0.4]]) == [0.4, 0.4, 0.5, 0.4]
  {
    var g: seq<seq<real>> := [[0.4, 0.4], [0.5, 0.4]];
    assert g[..1] == [[0.4, 0.4]];
    assert g[..1][..0] == [];
  }

  /** The distinct values of the 2 x 2 example, in first-seen order. */
  lemma TwoByTwoUnique()
    ensures Unique([0.4, 0.4, 0.5, 0.4]) == [0.4, 0.5]
  {
    var s: seq<real> := [0.4, 0.4, 0.5, 0.4];
    assert s[..3] == [0.4, 0.4, 0.5];
    assert s[..3][..2] == [0.4, 0.4];
    assert s[..3][..2][..1] == [0.4];
    assert [0.4][..0] == [];
    assert Unique([0.4]) == [0.4];
    assert Unique([0.4, 0.4]) == [0.4];
    assert Unique([0.4, 0.4, 0.5]) == [0.4, 0.5];
  }

  /** The category IDs of the 2 x 2 example, cell by cell. */
  lemma TwoByTwoIds()
    ensures SuperCatsOf([0.4, 0.4, 0.5, 0.4]) == [0, 0, 1, 0]
  {
    TwoByTwoUnique();
    var s: seq<real> := [0.4, 0.4, 0.5, 0.4];
    var ids := SuperCatsOf(s);
    assert Unique(s)[0] == 0.4 && Unique(s)[1] == 0.5;
    assert ids[0] == 0 && ids[1] == 0 && ids[2] == 1 && ids[3] == 0;
  }

  /** The IDs of the 2 x 2 example laid out as the map. */
  lemma TwoByTwoReshape()
    ensures Grid.Reshape<nat>([0, 0, 1, 0], 2, 2) == Ok([[0, 0], [1, 0]])
  {
    var ids: seq<nat> := [0, 0, 1, 0];
    var m := Grid.Reshape(ids, 2, 2).value;
    Grid.ReshapeCell(ids, 2, 2, 0, 0);
    Grid.ReshapeCell(ids, 2, 2, 0, 1);
    Grid.ReshapeCell(ids, 2, 2, 1, 0);
    Grid.ReshapeCell(ids, 2, 2, 1, 1);
    assert |m| == 2 && m[0] == [0, 0] && m[1] == [1, 0];
    assert m == [[0, 0], [1, 0]];
  }

  /**
   * A 2 x 2 grid of saturated water contents 0.4, 0.4 / 0.5, 0.4 gives the
   * map 0 0 / 1 0 and two categories, 0.4 then 0.5.
   */
  lemma TwoByTwoExample(inp: Inputs)
    requires Header.ReadDims(inp.header) == Ok(Header.Dims(2, 2))
    requires inp.thetaS == [[0.4, 0.4], [0.5, 0.4]]
    requires Run(inp).Ok?
    ensures Run(inp).value.superCatMap == [[0, 0], [1, 0]]
    ensures |Run(inp).value.properties| == 2
    ensures Run(inp).value.properties[0].thetaS == 0.4 && Run(inp).value.properties[1].thetaS == 0.5
  {
    TwoByTwoFlatten();
    TwoByTwoUnique();
    TwoByTwoIds();
    TwoByTwoReshape();
    var m: seq<seq<nat>> := [[0, 0], [1, 0]];
    RunMap(inp, m);
    RunThetaS(inp, 0);
    RunThetaS(inp, 1);
  }

  /** The conductivities of the 1 x 1 example, on their own. */
  lemma SingleKsatStages()
    ensures Grid.Flatten([[100.0]]) == [100.0]
    ensures Unique([100.0]) == [100.0]
    ensures Ksat.ConvertAll([100.0]) == [1.0]
  {
    var g: seq<seq<real>> := [[100.0]];
    assert g[..0] == [];
    var s: seq<real> := [100.0];
    assert s[..0] == [];
    var u := Unique(s);
    assert |u| == 1 && u[0] == 100.0;
    var ys := Ksat.ConvertAll(s);
    assert |ys| == 1 && ys[0] == 1.0;
  }

  /** A table whose conductivities are the single value 100 has one row, holding 100. */
  lemma SingleKsatTable(p: Parameters<real>)
    requires p.ksat == [100.0] && BuildProperties(p).Ok?
    ensures |BuildProperties(p).value| == 1 && BuildProperties(p).value[0].ksat == 100.0
  {
    SingleKsatStages();
    ColumnsAgree(p);
  }

  /**
   * The conductivity column lists the conductivities as read, in cm/d: a
   * single cell of 100 appears in the table as 100, while its converted
   * value would have been 1.
   */
  lemma KsatColumnUnconverted(inp: Inputs)
    requires inp.ksat == [[100.0]]
    requires Run(inp).Ok?
    ensures |Run(inp).value.properties| == 1
    ensures Run(inp).value.properties[0].ksat == 100.0
    ensures ConvertedKsat(inp) == [1.0]
  {
    RunStages(inp);
    SingleKsatStages();
    SingleKsatTable(ParametersOf(inp));
  }

  /** A grid holding no data anywhere becomes a single category, 0, and every map cell is 0. */
  lemma AllNoDataOneCategory(inp: Inputs)
    requires |Grid.Flatten(inp.thetaS)| > 0
    requires forall j :: 0 <= j < |Grid.Flatten(inp.thetaS)| ==> Grid.Flatten(inp.thetaS)[j] == Ksat.NoData
    requires Run(inp).Ok?
    ensures |Run(inp).value.properties| == 1 && |Run(inp).value.details| == 1
    ensures forall j :: 0 <= j < |Grid.Flatten(Run(inp).value.superCatMap)| ==> Grid.Flatten(Run(inp).value.superCatMap)[j] == 0
  {
    ConstantCollapses(Grid.Flatten(inp.thetaS), Ksat.NoData);
  }
}

=== FILE: results.dfy ===
/** Optional values and success/failure values for the steps of the conversion that can fail. */
module Results {

  /** A value that may be absent (an unset Python variable, a missing dictionary key). */
  datatype Option<+T> = None | Some(value: T)

  /** The outcome of a step that either produces a value or stops the run with an error. */
  datatype Result<+T, +E> = Ok(value: T) | Err(error: E)
}

=== FILE: subcats.dfy ===
/**
 * The subcategory grid: every cell of the `nrows × ncols` raster gets the
 * positional ID `1 + ncols * row + col`, no-data cells included.
 */
module SubCats {
  import opened Grid

  /** The positional ID of cell (row, col). */
  function SubCatId(ncols: nat, row: nat, col: nat): (id: nat) {
    1 + ncols * row + col
  }

  /** The grid entries filled in so far hold their IDs; the rest still hold 0. */
  predicate FilledUpTo(grid: seq<seq<nat>>, nrows: nat, ncols: nat, row: nat, col: nat) {
    && IsRect(grid, nrows, ncols)
    && forall r, c :: 0 <= r < nrows && 0 <= c < ncols ==>
         grid[r][c] == (if r < row || (r == row && c < col) then SubCatId(ncols, r, c) else 0)
  }

  /**
   * The script's double loop: a zero grid of the raster's shape whose cells
   * are overwritten, row by row, with their positional IDs. Flattened row
   * by row it reads `1, 2, ..., nrows * ncols`.
   */
  method BuildSubCats(nrows: nat, ncols: nat) returns (grid: seq<seq<nat>>)
    ensures IsRect(grid, nrows, ncols)
    ensures forall r, c :: 0 <= r < nrows && 0 <= c < ncols ==> grid[r][c] == SubCatId(ncols, r, c)
    ensures |Flatten(grid)| == nrows * ncols
    ensures forall i :: 0 <= i < nrows * ncols ==> Flatten(grid)[i] == i + 1
  {
    grid := seq(nrows, _ => seq(ncols, _ => 0));
    var row := 0;
    while row < nrows
      invariant row <= nrows
      invariant FilledUpTo(grid, nrows, ncols, row, 0)
    {
      var col := 0;
      while col < ncols
        invariant col <= ncols
        invariant FilledUpTo(grid, nrows, ncols, row, col)
      {
        var updated: seq<nat> := grid[row][col := SubCatId(ncols, row, col)];
        grid := grid[row := updated];
        col := col + 1;
      }
      row := row + 1;
    }
    FlattenSubCats(grid, nrows, ncols);
  }

  /** Flattening the subcategory grid row by row yields `1, 2, ..., nrows * ncols`. */
  lemma FlattenSubCats(grid: seq<seq<nat>>, nrows: nat, ncols: nat)
    requires IsRect(grid, nrows, ncols)
    requires forall r, c :: 0 <= r < nrows && 0 <= c < ncols ==> grid[r][c] == SubCatId(ncols, r, c)
    ensures |Flatten(grid)| == nrows * ncols
    ensures forall i :: 0 <= i < nrows * ncols ==> Flatten(grid)[i] == i + 1
  {
    FlattenLength(grid, nrows, ncols);
    forall i | 0 <= i < nrows * ncols
      ensures Flatten(grid)[i] == i + 1
    {
      FlatIndexSplit(i, nrows, ncols);
      var r, c := i / ncols, i % ncols;
      FlattenCell(grid, nrows, ncols, r, c);
      assert grid[r][c] == 1 + ncols * r + c;
    }
  }

  /**
   * Subcategory IDs are a numbering of the cells: every ID lies in
   * `[1, nrows * ncols]`, and two different cells never share an ID.
   */
  lemma SubCatIdsDistinctInRange(nrows: nat, ncols: nat, r1: nat, c1: nat, r2: nat, c2: nat)
    requires r1 < nrows && c1 < ncols && r2 < nrows && c2 < ncols
    ensures 1 <= SubCatId(ncols, r1, c1) <= nrows * ncols
    ensures SubCatId(ncols, r1, c1) == SubCatId(ncols, r2, c2) <==> r1 == r2 && c1 == c2
  {
    RowEndBound(r1, nrows, ncols);
    if r1 < r2 {
      RowEndBound(r1, r2, ncols);
    } else if r2 < r1 {
      RowEndBound(r2, r1, ncols);
    }
  }
}

=== FILE: tables.dfy ===
/**
 * The two library tables: one SoilProperty row per soil category, holding
 * the category's van Genuchten parameters, and one SoilDetail row per
 * category placing it as the single layer of its soil type.
 *
 * The category column is the first-seen list of the category IDs; each
 * parameter column is, independently, the first-seen list of that
 * parameter's distinct values. A column whose list is not as long as the
 * category column cannot be placed into the table, and construction fails.
 */
module Tables {
  import opened Results
  import opened Dedup

  const PropertyOpen := "<SoilProperty>"
  const PropertyClose := "</SoilProperty>"
  const DetailOpen := "<SoilDetail>"
  const DetailClose := "</SoilDetail>"

  /** Every category is the first (and only) layer of its soil type. */
  const SoilLayer: nat := 1
  /** Every soil column is 2 m deep. */
  const Depth: real := 2.0

  /** One row of the SoilProperties table. */
  datatype SoilProperty<T> = SoilProperty(
    open: string,
    superCats: nat,
    soilType: nat,
    thetaS: T,
    thetaR: T,
    ksat: T,
    alpha: T,
    n: T,
    close: string)

  /** One row of the SoilDetails table. */
  datatype SoilDetail = SoilDetail(
    open: string,
    superCats: nat,
    soilLayer: nat,
    soilType: nat,
    depth: real,
    close: string)

  /** The parameter columns, in the order they are placed into the table. */
  datatype Column = ThetaS | ThetaR | Ksat | Alpha | N

  /** A parameter column with `values` distinct values placed beside `rows` categories. */
  datatype TableError = LengthMismatch(column: Column, values: nat, rows: nat)

  /** The parameter values of one table: a flattened grid per parameter. */
  datatype Parameters<T> = Parameters(thetaS: seq<T>, thetaR: seq<T>, ksat: seq<T>, alpha: seq<T>, n: seq<T>)

  /** The category IDs of the SoilProperties table: the distinct IDs of the map, in first-seen order. */
  function Categories<T(==)>(p: Parameters<T>): (cats: seq<nat>)
    ensures cats == Range(|Unique(p.thetaS)|)
  {
    SuperCatsFirstSeen(p.thetaS);
    Unique(SuperCatsOf(p.thetaS))
  }

  /** The cell values of one parameter, in flattened order. */
  function CellsOf<T>(p: Parameters<T>, c: Column): (cells: seq<T>) {
    match c
    case ThetaS => p.thetaS
    case ThetaR => p.thetaR
    case Ksat => p.ksat
    case Alpha => p.alpha
    case N => p.n
  }

  /** The distinct values of one parameter column, in first-seen order. */
  function Distinct<T(==)>(p: Parameters<T>, c: Column): (values: seq<T>) {
    Unique(CellsOf(p, c))
  }

  /** Column `c` has exactly one value for every category. */
  predicate Fits<T(==)>(p: Parameters<T>, c: Column) {
    |Distinct(p, c)| == |Unique(p.thetaS)|
  }

  /**
   * Every column fits. The first column holds the values the categories
   * were made from, so it always fits and is not looked at.
   */
  predicate AllFit<T(==)>(p: Parameters<T>) {
    var k := |Unique(p.thetaS)|;
    |Unique(p.thetaR)| == k && |Unique(p.ksat)| == k && |Unique(p.alpha)| == k && |Unique(p.n)| == k
  }

  /** The table fits exactly when every one of the five columns does. */
  lemma AllFitEvery<T>(p: Parameters<T>)
    ensures AllFit(p) <==> forall c :: Fits(p, c)
  {
    assert Fits(p, ThetaR) && Fits(p, Ksat) && Fits(p, Alpha) && Fits(p, N) ==> AllFit(p);
    if AllFit(p) {
      forall c ensures Fits(p, c) {
        match c
        case ThetaS =>
        case ThetaR =>
        case Ksat =>
        case Alpha =>
        case N =>
      }
    }
  }

  /** The first column, in table order, that does not fit, if any. */
  function FirstMisfit<T(==)>(p: Parameters<T>): (r: Option<Column>)
    ensures r.None? <==> AllFit(p)
    ensures r.Some? ==> !Fits(p, r.value) && r.value != ThetaS
    ensures r.Some? && r.value != ThetaR ==> Fits(p, ThetaR)
    ensures r.Some? && r.value !in {ThetaR, Ksat} ==> Fits(p, Ksat)
    ensures r == Some(N) ==> Fits(p, Alpha)
  {
    if !Fits(p, ThetaR) then Some(ThetaR)
    else if !Fits(p, Ksat) then Some(Ksat)
    else if !Fits(p, Alpha) then Some(Alpha)
    else if !Fits(p, N) then Some(N)
    else None
  }

  /**
   * `row` describes category `i`: it is its own soil type, and holds the
   * `i`-th distinct value of every parameter.
   */
  predicate DescribesCategory<T(==)>(p: Parameters<T>, i: nat, row: SoilProperty<T>) {
    && row.open == PropertyOpen && row.close == PropertyClose
    && row.superCats == i && row.soilType == i
    && i < |Unique(p.thetaS)| && row.thetaS == Unique(p.thetaS)[i]
    && i < |Unique(p.thetaR)| && row.thetaR == Unique(p.thetaR)[i]
    && i < |Unique(p.ksat)| && row.ksat == Unique(p.ksat)[i]
    && i < |Unique(p.alpha)| && row.alpha == Unique(p.alpha)[i]
    && i < |Unique(p.n)| && row.n == Unique(p.n)[i]
  }

  /** Row `i` of the SoilProperties table, for a table whose columns all fit. */
  function PropertyRow<T(==)>(p: Parameters<T>, i: nat): (row: SoilProperty<T>)
    requires AllFit(p)
    requires i < |Unique(p.thetaS)|
    ensures DescribesCategory(p, i, row)
  {
    var cats := Categories(p);
    SoilProperty(PropertyOpen, cats[i], cats[i],
      Unique(p.thetaS)[i], Unique(p.thetaR)[i], Unique(p.ksat)[i], Unique(p.alpha)[i], Unique(p.n)[i],
      PropertyClose)
  }

  /** The first `m` rows of a table whose columns all fit. */
  function PropertyRows<T(==)>(p: Parameters<T>, m: nat): (rows: seq<SoilProperty<T>>)
    requires AllFit(p) && m <= |Unique(p.thetaS)|
    ensures |rows| == m
    ensures forall i :: 0 <= i < m ==> rows[i] == PropertyRow(p, i)
  {
    if m == 0 then [] else PropertyRows(p, m - 1) + [PropertyRow(p, m - 1)]
  }

  /**
   * The SoilProperties table: row `i` is category `i`, whose soil type is
   * `i` as well, with the `i`-th distinct value of every parameter.
   */
  function BuildProperties<T(==)>(p: Parameters<T>): (r: Result<seq<SoilProperty<T>>, TableError>)
    ensures r.Ok? <==> AllFit(p)
    ensures r.Err? ==> FirstMisfit(p).Some? && r.error == LengthMismatch(
      FirstMisfit(p).value, |Distinct(p, FirstMisfit(p).value)|, |Unique(p.thetaS)|)
    ensures r.Ok? ==> |r.value| == |Unique(p.thetaS)|
    ensures r.Ok? ==> forall i :: 0 <= i < |r.value| ==> DescribesCategory(p, i, r.value[i])
  {
    match FirstMisfit(p)
    case Some(c) => Err(LengthMismatch(c, |Distinct(p, c)|, |Categories(p)|))
    case None => Ok(PropertyRows(p, |Categories(p)|))
  }

  /** The SoilDetails table: one row per category, the category's only layer, 2 m deep. */
  function BuildDetails(superCats: seq<nat>): (rows: seq<SoilDetail>)
    ensures |rows| == |superCats|
    ensures forall i :: 0 <= i < |rows| ==>
      && rows[i].open == DetailOpen && rows[i].close == DetailClose
      && rows[i].superCats == superCats[i] && rows[i].soilType == superCats[i]
      && rows[i].soilLayer == SoilLayer && rows[i].depth == Depth
  {
    seq(|superCats|, i requires 0 <= i < |superCats| =>
      SoilDetail(DetailOpen, superCats[i], SoilLayer, superCats[i], Depth, DetailClose))
  }

  /**
   * Every cell of the first parameter grid finds its own value in the
   * property row its category ID points at.
   */
  lemma CellRowAgrees<T>(p: Parameters<T>, j: nat)
    requires BuildProperties(p).Ok? && j < |p.thetaS|
    ensures SuperCatsOf(p.thetaS)[j] < |BuildProperties(p).value|
    ensures BuildProperties(p).value[SuperCatsOf(p.thetaS)[j]].thetaS == p.thetaS[j]
  {
    var i := SuperCatsOf(p.thetaS)[j];
    assert DescribesCategory(p, i, BuildProperties(p).value[i]);
  }

  /** Every property row describes at least one cell of the first grid. */
  lemma RowHasCell<T>(p: Parameters<T>, i: nat)
    requires BuildProperties(p).Ok? && i < |BuildProperties(p).value|
    ensures exists j :: 0 <= j < |p.thetaS| && SuperCatsOf(p.thetaS)[j] == i
  {
    var u := Unique(p.thetaS);
    var ids := SuperCatsOf(p.thetaS);
    assert u[i] in p.thetaS;
    var j :| 0 <= j < |p.thetaS| && p.thetaS[j] == u[i];
    NoDupSameIndex(u, ids[j], i);
  }

  /**
   * Every parameter grid repeats its values at exactly the cells where the
   * first grid repeats its own: the cells of one category share all five
   * values, and different categories differ in each parameter.
   */
  predicate Consistent<T(==)>(p: Parameters<T>) {
    && SamePattern(p.thetaS, p.thetaR) && SamePattern(p.thetaS, p.ksat)
    && SamePattern(p.thetaS, p.alpha) && SamePattern(p.thetaS, p.n)
  }

  /**
   * On consistent grids the table can be built, and the row a cell's ID
   * points at holds that cell's own five values.
   */
  lemma ConsistentRowsDescribeCells<T>(p: Parameters<T>, j: nat)
    requires Consistent(p) && j < |p.thetaS|
    ensures BuildProperties(p).Ok?
    ensures SuperCatsOf(p.thetaS)[j] < |BuildProperties(p).value|
    ensures var row := BuildProperties(p).value[SuperCatsOf(p.thetaS)[j]];
      && row.thetaS == p.thetaS[j] && row.thetaR == p.thetaR[j] && row.ksat == p.ksat[j]
      && row.alpha == p.alpha[j] && row.n == p.n[j]
  {
    SamePatternSameIds(p.thetaS, p.thetaR);
    SamePatternSameIds(p.thetaS, p.ksat);
    SamePatternSameIds(p.thetaS, p.alpha);
    SamePatternSameIds(p.thetaS, p.n);
    var i := SuperCatsOf(p.thetaS)[j];
    assert DescribesCategory(p, i, BuildProperties(p).value[i]);
  }

  /** The distinct values of two three-cell grids, each holding two values. */
  lemma ThreeCellsUnique<T>(x: T, y: T)
    requires x != y
    ensures Unique([x, x, y]) == [x, y]
    ensures Unique([x, y, x]) == [x, y]
  {
    var s, g := [x, x, y], [x, y, x];
    assert s[..2] == [x, x] && s[..2][..1] == [x] && [x][..0] == [];
    assert Unique([x]) == [x];
    assert Unique([x, x]) == [x];
    assert g[..2] == [x, y] && g[..2][..1] == [x];
    assert Unique([x, y]) == [x, y];
  }

  /** In the grid `[x, x, y]` only the last cell is in category 1. */
  lemma ThreeCellsIds<T>(x: T, y: T)
    requires x != y
    ensures SuperCatsOf([x, x, y]) == [0, 0, 1]
  {
    ThreeCellsUnique(x, y);
    var ids := SuperCatsOf([x, x, y]);
    assert Unique([x, x, y])[0] == x && Unique([x, x, y])[1] == y;
    assert ids[0] == 0 && ids[1] == 0 && ids[2] == 1;
  }

  /**
   * Without consistency the parameter columns are not tied to the
   * categories. The θS grid [0.4, 0.4, 0.5] has two categories, and the θR
   * grid [0.1, 0.2, 0.1] two distinct values, so the table is built; but
   * row 1, the category of the last cell only, holds θR 0.2, while that
   * cell holds 0.1.
   */
  lemma IndependentColumnsExample()
    ensures var g: seq<real> := [0.1, 0.2, 0.1];
      var p := Parameters([0.4, 0.4, 0.5], g, g, g, g);
      && BuildProperties(p).Ok? && |BuildProperties(p).value| == 2
      && SuperCatsOf(p.thetaS) == [0, 0, 1]
      && BuildProperties(p).value[1].thetaR == 0.2 && p.thetaR[2] == 0.1
  {
    var g: seq<real> := [0.1, 0.2, 0.1];
    ThreeCellsUnique(0.4, 0.5);
    ThreeCellsUnique(0.1, 0.2);
    ThreeCellsIds(0.4, 0.5);
    var p := Parameters([0.4, 0.4, 0.5], g, g, g, g);
    assert AllFit(p);
    assert DescribesCategory(p, 1, BuildProperties(p).value[1]);
  }

  /** In a table that could be built, every parameter has as many distinct values as there are rows. */
  lemma ColumnsAgree<T>(p: Parameters<T>)
    requires BuildProperties(p).Ok?
    ensures var k := |BuildProperties(p).value|;
      && |Unique(p.thetaS)| == k && |Unique(p.thetaR)| == k && |Unique(p.ksat)| == k
      && |Unique(p.alpha)| == k && |Unique(p.n)| == k
  {
  }

  /** The two tables list the same categories, row by row. */
  lemma DetailsMatchProperties<T>(p: Parameters<T>)
    requires BuildProperties(p).Ok?
    ensures var props := BuildProperties(p).value;
      var details := BuildDetails(Categories(p));
      && |details| == |props|
      && forall i :: 0 <= i < |props| ==>
        details[i].superCats == props[i].superCats && details[i].soilType == props[i].soilType
  {
    var props := BuildProperties(p).value;
    var cats := Categories(p);
    var details := BuildDetails(cats);
    forall i | 0 <= i < |props|
      ensures details[i].superCats == props[i].superCats && details[i].soilType == props[i].soilType
    {
      assert DescribesCategory(p, i, props[i]);
      assert details[i].superCats == cats[i] == i;
    }
  }
}
